=== FILE: README.md ===
# blankdb-client request builder, in Dafny

This project models the core of the blankdb client library. A `Client` holds
a connector URL and a credential store: one database-level user/password pair
and one pair per namespace. Each of its eighteen operation methods (`hello`,
the namespace, database-user, collection, document and namespace-user
methods) does the same four steps:

1. check the credentials of its scope;
2. check its arguments in declaration order, throwing
   `Missing Parameter [i]: <name>` for the first one that is missing;
3. fill its route template;
4. hand `get` or `post` the URL, the payload and the scope's pair.

`get` and `post` build the request options, which are the verb, the fixed
6000 ms timeout, an HTTP Basic `Authorization` header and the content
headers. `request` then settles on the response status.

The modules follow the source files:

| module | file | what it holds |
|---|---|---|
| `Wrappers` | — | `Option` and `Result` |
| `Decimal` | — | `nat` to decimal text and back (template literals of numbers) |
| `Unicode` | — | UTF-8 encoding and decoding of strings, and the UTF-16 `length` of a string |
| `Base64` | — | base64 with padding (section 4 of RFC 4648) and its decoder |
| `Json` | — | JSON values and JavaScript truthiness |
| `Sequences` | — | first index, split and join |
| `Credentials` | src/client.js | the store, constructor, accessors and setters; the `ClientError` messages |
| `Transport` | utils.js | `buildOptions`, `get`, `post`, `safeJSONparse` and how `request` settles |
| `Operations` | src/client.js | the operations as a datatype; `Perform`, the shared method template; `Invoke`, a method end to end |
| `Routing` | src/client.js | route templates, read back as path segments; which requests a server can tell apart |

How JavaScript is modelled:

- A thrown `ClientError` becomes a `Failure`.
- Mutating setters become functions that return the updated client.
- Truthiness of a string argument means "non-empty".
- Truthiness of document data is `Json.Truthy`.
- `JSON.parse` and `JSON.stringify` are function parameters.
- The network's answer is an `Event` parameter.

Properties of the routing:

- Every route is a template prefix followed by the URL arguments, one path
  segment each (`Routing.RouteFillsTemplate`).
- A server that reads method and segments recovers the operation, apart
  from its body payload, whenever the arguments are non-empty and contain no
  slash
  (`Routing.ParseRequestRoundTrip`, `Routing.RequestIdentifiesOperation`).
- An argument containing a slash makes two calls indistinguishable
  (`Routing.SlashInArgumentIsAmbiguous`).

`createNamespaceUser` posts to `/doc/all/<namespace>/<user>`. That is the
same path `listDocuments` uses with GET, and not the `/usr/...` area of the
other namespace-user methods. The model keeps the route as written, because
the server's routing is not part of this model. The lemma
`Routing.NamespaceUserRouteIsDocumentListing` records the overlap.

Two behaviours of the code that the model keeps as written:

- `post` computes headers from the serialized data string, but writes the
  original `data` value as the body (utils.js:47), not the serialized string.
- `Content-Length` is the data string's `length`, which counts UTF-16 code
  units, not the bytes written (see Findings). `Transport.Post`, and through
  it every operation, announces this as-written length. The corrected
  `Transport.BuildOptions` and `Transport.PostCorrected` count UTF-8 bytes,
  and `Transport.PostAgreesOnAscii` relates the two.

## Model

| member | source | states |
|---|---|---|
| Unicode.DecodeEncode | utils.js:1 | The UTF-8 bytes `Buffer.from(s, 'utf-8')` produces decode back to exactly `s`, so the encoding loses nothing. |
| Unicode.Utf16LengthVersusUtf8 | utils.js:21 | A string's JavaScript `length` (UTF-16 units) never exceeds its UTF-8 byte count. The two are equal exactly when every character is ASCII. |
| Base64.Encode | utils.js:1 | The base64 text of n bytes, padded to whole groups, has 4·⌈n/3⌉ characters. |
| Base64.DecodeEncode | utils.js:1 | Decoding the base64 text of any byte string gives back those bytes. |
| Base64.EncodeInjective | utils.js:1 | Different byte strings have different base64 texts. |
| Transport.BasicAuthorization | utils.js:16 | The header is `Basic ` followed by exactly the padded base64 of the UTF-8 bytes of `user:pass`, and that token decodes back to those bytes. |
| Transport.ReadBasicAuthorizationRoundTrip | utils.js:16 | A server that splits the decoded token at its first colon recovers the user name and password, provided the user name has no colon. |
| Transport.ColonInUserNameIsAmbiguous | utils.js:16 | With a colon in the user name, two different pairs send the same header. |
| Transport.BuildOptionsAsWritten | utils.js:11-24 | The verb and the 6000 ms timeout are always present, and so is the Basic `Authorization` header. The header key set is exactly `Authorization` without truthy data, and all three headers with it. `Content-Type` is form-urlencoded, and `Content-Length` is the UTF-16 length of the data. |
| Transport.BuildOptions | utils.js:11-24 | The same options, with the exact header key set in each case: only `Authorization` without data, all three with data. The content type is form-urlencoded, and `Content-Length` is the UTF-8 byte count of the data. |
| Transport.AsWrittenAgreesOnAscii | utils.js:19-22 | The as-written and corrected options are equal if and only if the data string is all ASCII. |
| Transport.AsWrittenUndercountsNonAscii | utils.js:21 | For the body "é", the announced `Content-Length` is 1 while the written body is 2 bytes. |
| Transport.DataString | utils.js:45 | A string is used as is; any other value goes through `JSON.stringify`. |
| Transport.Get | utils.js:50-53 | A GET request carries only the `Authorization` header and no body. |
| Transport.Post | utils.js:44-48 | The verb is POST. The headers are those `buildOptions` sets for the data string: the Basic header, plus form-urlencoded `Content-Type` and `Content-Length` exactly when the data string is non-empty. The length is the data string's UTF-16 length, for string and serialized data alike. The original data is written as the body exactly when it is truthy. |
| Transport.PostCorrected | utils.js:44-48 | A POST request with the same header key set, Basic header, form-urlencoded `Content-Type` and body as `post`, but with `Content-Length` counting the UTF-8 bytes of the data string. |
| Transport.PostAgreesOnAscii | utils.js:21 | `post` as written and corrected send the same request if and only if the data string is all ASCII. |
| Transport.PostAnnouncesBodyLengthOnlyOnAscii | utils.js:21 | For a non-empty string body, the announced `Content-Length` equals the number of bytes written if and only if the string is all ASCII. |
| Transport.SafeJsonParse | utils.js:3-9 | The parsed value when parsing succeeds, `null` when it fails. |
| Transport.Settle | utils.js:29-38 | A response resolves exactly when its status is in 200..299, with the parsed body or `null`. Any other status rejects with that code. A timeout rejects with the timeout reason, and a connection error rejects with its cause. |
| Transport.StatusMessageNamesCode | utils.js:31 | The status rejection text is `HTTP status code ` followed by digits that parse back to the status code. |
| Decimal.ToStringInjective | utils.js:31 | Different numbers have different decimal renderings, so a status message, or the port digits in the connector, names exactly one number. |
| Credentials.NewClient | src/client.js:12-18 | The connector is `http://`, the address, `:`, and digits that parse back to the port. The store holds the given database pair and no namespaces, and it is valid. |
| Credentials.ReplayDatabasePair | src/client.js:20-34 | After any sequence of setter calls, `storedDBCredentials` returns the pair of the last database setter call that was accepted, or the constructor's pair if there was none. |
| Credentials.StoredNSCredentials | src/client.js:24-26 | A pair is returned exactly when the namespace has been stored, and it is the stored pair; otherwise none (`undefined`). |
| Credentials.SetDatabaseCredentials | src/client.js:28-34 | Errors come in source order (username, then password), and the call succeeds if and only if both are non-empty. On success the database pair reads back as given, and the namespaces, the connector and store validity are unchanged. |
| Credentials.SetNamespaceCredentials | src/client.js:36-45 | Errors come in source order (namespace name, username, password), and the call succeeds if and only if all three are non-empty. On success the namespace's pair reads back as given and the key set gains exactly that name. Every other namespace, the database pair and the connector are unchanged, and validity is preserved. |
| Credentials.ParameterMessageNamesIndex | src/client.js:29-30 | `Missing Parameter [i]: <name>` has the index digits at a fixed offset, and they parse back to i. The name sits between `<` and a final `>`. |
| Credentials.EmptyNameNeverStored | src/client.js:37 | Because the setter rejects an empty namespace name, a valid store never holds one. |
| Credentials.ReplayKeepsValid | src/client.js:28-45 | Any sequence of setter calls, whether they succeed or throw, keeps a valid store valid. |
| Credentials.ReachableIsValid | src/client.js:12-45 | Every client built by the constructor followed by setter calls has a valid store. |
| Credentials.ReplayFrame | src/client.js:36-45 | Setter calls that never name a namespace leave its pair as it was. |
| Credentials.ReplayKeepsConnector | src/client.js:12-45 | The connector never changes. Namespace setters never change the database pair. |
| Operations.ScopeCredentials | src/client.js:99 | The pair read for a scope is returned only when both halves are non-empty. When none is returned, no pair is authorized for that scope. |
| Operations.MethodOf | src/client.js:71-76 | A method uses POST exactly when it has a payload, which is only for `createDatabaseUser`, `createDocument` and `createNamespaceUser`. |
| Operations.FirstMissing | src/client.js:119-123 | The position returned is the first argument not given: every earlier one was given. None is returned exactly when all were given. |
| Operations.Perform | src/client.js:49-176 | It fails with the credentials error of its level if and only if no pair of its scope is authorized. It fails on parameter i if and only if the credentials passed, argument i is missing and all earlier ones were given. It succeeds exactly when neither happened, and then calls the route with its payload and the scope's authorized pair. |
| Operations.GivenPayloadIsTruthy | src/client.js:118-124 | A payload that passed the argument checks is truthy, so `post` writes it. |
| Operations.Send | utils.js:44-53 | The call's URL, verb and timeout are kept. GET carries only the Basic header of the call's pair and no body. POST carries the headers `buildOptions` sets for the serialized payload, with its UTF-16 `Content-Length`, and the payload is written exactly when it is truthy. |
| Operations.Invoke | src/client.js:49-176 | A method issues a request exactly when validation succeeds, and otherwise throws the same error. The request goes to connector plus route with the method's verb and the 6000 ms timeout. A GET request has exactly the Basic header of its scope's pair and no body. A POST request adds form-urlencoded `Content-Type` and the payload's UTF-16 `Content-Length` when the serialized payload is non-empty, and carries the payload as its body. |
| Operations.NamespaceNameComesFirst | src/client.js:98-100 | Every namespace-level method is scoped by its first argument, `namespace-name`. |
| Operations.NamespaceCheckInValidStore | src/client.js:99 | On a valid store the namespace credential check passes exactly for stored namespaces. |
| Operations.EmptyNamespaceFailsOnCredentials | src/client.js:99-100 | On a valid store an empty namespace name fails with `Missing Namespace-Level Credentials`. |
| Operations.NamespaceParameterCheckUnreachable | src/client.js:99-100 | On a valid store no namespace-level method reports `Missing Parameter [0]: <namespace-name>`. |
| Operations.DatabaseCheckComesFirst | src/client.js:55-56 | An unset database pair fails every database-level method with `Missing Database-Level Credentials`, whatever the arguments. |
| Operations.CreateDatabaseUserExampleCall | src/client.js:71-76 | `createDatabaseUser('alice', 'pw')` with pair dbuser:dbpass calls `post` at `/dbu/new/alice` with body `pw` and that pair. |
| Operations.CreateDatabaseUserExample | src/client.js:71-76 | The resulting request is a POST with `Content-Length` 2, and its Authorization header reads back as dbuser:dbpass. |
| Operations.OnlyOwnScopeMatters | src/client.js:98-102 | A method's outcome depends on the store only through the pair of its own scope. |
| Operations.OtherNamespaceSetterIrrelevant | src/client.js:40 | Setting one namespace's pair never changes the outcome of another namespace's methods. |
| Operations.DatabaseSetterIrrelevantToNamespaces | src/client.js:31-32 | Setting the database pair never changes the outcome of a namespace-level method. |
| Routing.RouteFillsTemplate | src/client.js:49-176 | Every route is `/` followed by the template's fixed segments and the URL arguments in order, joined by slashes. |
| Routing.DatabaseRoutesFillTemplates | src/client.js:49-93 | The same, for the database-level methods. |
| Routing.CollectionRoutesFillTemplates | src/client.js:98-116 | The same, for the collection methods. |
| Routing.DocumentRoutesFillTemplates | src/client.js:118-148 | The same, for the document methods. |
| Routing.UserRoutesFillTemplates | src/client.js:150-176 | The same, for the namespace-user methods. |
| Routing.ParseRequestRoundTrip | src/client.js:49-176 | With non-empty, slash-free arguments, reading the verb and the route's segments gives back the operation, with the body payload dropped. |
| Routing.RequestIdentifiesOperation | src/client.js:49-176 | Two such operations with the same verb and route are the same operation, apart from the payload. |
| Routing.NamespaceUserRouteIsDocumentListing | src/client.js:143-156 | `createNamespaceUser` uses the same path as `listDocuments`; only the verb differs. |
| Routing.SlashInArgumentIsAmbiguous | src/client.js:132 | A slash inside an argument gives two different calls the same route. |
| Routing.UrlArgsLeadParams | src/client.js:49-176 | The URL arguments are the leading checked parameters, in order. Each counts as given exactly when it is non-empty. |
| Routing.PerformedArgsAreNonEmpty | src/client.js:49-176 | A method that passes validation has no empty path segment in its route. |

## Left out

- The network side of `request` (utils.js:26-42) is not modelled: choosing the `http` or `https` module, socket events, chunk buffering, `req.destroy` and the Promise plumbing. A finished exchange is one `Event`, and `Settle` gives its outcome.
- Decoding the response bytes as UTF-8 is left out. The body arrives as text.
- The 6000 ms timeout is only a value in the options. When it fires is not modelled.
- `JSON.parse` and `JSON.stringify` are parameters. Their behaviour, and the throw of `stringify` on cyclic values, are not modelled.
- `req.write(data)` of a non-string value is not modelled. The body is recorded as the JSON value that `post` was given. Node rejects such a write, and that rejection is not modelled.
- `storedDBCredentials` returns the live object, so a caller can mutate the store through it. Values in the model cannot alias. What it returns is stated by `Credentials.ReplayDatabasePair` and by the read-back in `Credentials.SetDatabaseCredentials`.
- Every argument except `createDocument`'s document data is a string, and "not given" is the empty string. Non-string values, `undefined` and `null` in those positions are not modelled.
- Document data is a JSON value, and its numbers are integers only. Fractional numbers, `NaN` and the infinities are not modelled. `NaN` is falsy, so `createDocument` would reject it as missing (src/client.js:123).
- JavaScript object-as-map quirks in `#auth.ns` are not modelled: inherited names such as `constructor` read as present, and `__proto__` keys are special. The model uses a plain map.
- Lone surrogates are not modelled, because a Dafny `char` is a Unicode scalar value. For that reason the UTF-16 length counts two units above U+FFFF.
- The port is a natural number written in decimal. Other values that JavaScript interpolates into the connector are not modelled.
- Setters return `this` for chaining. Here they return the updated client.
- index.js is an example script: it builds a client, calls both setters and prints the result of `listNamespaceUsers('main')`. Console output and the script itself are not part of this model.
- Concurrency between requests is left out. Requests share no state except the client, which requests only read.

## Findings

| source | as written | input that shows it | evidently intended | confidence | as-written member | corrected member |
|---|---|---|---|---|---|---|
| utils.js:21 | `Content-Length` is `data.length`, which counts UTF-16 code units, while Node writes the string as UTF-8 bytes | data `"é"`: `Content-Length` 1, body 2 bytes | `Content-Length` is the UTF-8 byte length of the body | high, not executed | Transport.BuildOptionsAsWritten | Transport.BuildOptions |

=== FILE: base64.dfy ===
/**
 * The base64 encoding of section 4 of RFC 4648 (standard alphabet, `=`
 * padding), which is what Node's `Buffer.prototype.toString('base64')`
 * produces, together with the decoding that undoes it.
 */
module Base64 {
  import opened Wrappers
  import opened Unicode

  type index = x: int | 0 <= x < 64

  /** The alphabet of Table 1 of RFC 4648. */
  function CharOf(i: index): (c: char)
    ensures c != '='
  {
    if i < 26 then (('A' as int) + i) as char
    else if i < 52 then (('a' as int) + (i - 26)) as char
    else if i < 62 then (('0' as int) + (i - 52)) as char
    else if i == 62 then '+'
    else '/'
  }

  /** The position of a character in the alphabet, if it belongs to it. */
  function IndexOf(c: char): (r: Option<index>)
    ensures r.Some? ==> CharOf(r.value) == c
  {
    if 'A' <= c <= 'Z' then Some((c as int) - ('A' as int))
    else if 'a' <= c <= 'z' then Some((c as int) - ('a' as int) + 26)
    else if '0' <= c <= '9' then Some((c as int) - ('0' as int) + 52)
    else if c == '+' then Some(62)
    else if c == '/' then Some(63)
    else None
  }

  lemma IndexOfCharOf(i: index)
    ensures IndexOf(CharOf(i)) == Some(i)
  {
  }

  predicate InAlphabet(c: char) {
    IndexOf(c).Some?
  }

  /** Three bytes become four alphabet characters. */
  function EncodeGroup(a: byte, b: byte, c: byte): (s: string)
    ensures |s| == 4 && forall k :: 0 <= k < 4 ==> InAlphabet(s[k])
  {
    IndexOfCharOf(a / 4);
    IndexOfCharOf((a % 4) * 16 + b / 16);
    IndexOfCharOf((b % 16) * 4 + c / 64);
    IndexOfCharOf(c % 64);
    [CharOf(a / 4), CharOf((a % 4) * 16 + b / 16), CharOf((b % 16) * 4 + c / 64), CharOf(c % 64)]
  }

  /** The final group of two bytes: three characters and one pad. */
  function EncodeTwo(a: byte, b: byte): (s: string)
    ensures |s| == 4 && s[3] == '=' && forall k :: 0 <= k < 3 ==> InAlphabet(s[k])
  {
    IndexOfCharOf(a / 4);
    IndexOfCharOf((a % 4) * 16 + b / 16);
    IndexOfCharOf((b % 16) * 4);
    [CharOf(a / 4), CharOf((a % 4) * 16 + b / 16), CharOf((b % 16) * 4), '=']
  }

  /** The final group of one byte: two characters and two pads. */
  function EncodeOne(a: byte): (s: string)
    ensures |s| == 4 && s[2] == '=' && s[3] == '=' && InAlphabet(s[0]) && InAlphabet(s[1])
  {
    IndexOfCharOf(a / 4);
    IndexOfCharOf((a % 4) * 16);
    [CharOf(a / 4), CharOf((a % 4) * 16), '=', '=']
  }

  /** Base64 text of a byte sequence. */
  function Encode(bs: seq<byte>): (s: string)
    ensures |s| == 4 * ((|bs| + 2) / 3)
    decreases |bs|
  {
    if |bs| == 0 then ""
    else if |bs| == 1 then EncodeOne(bs[0])
    else if |bs| == 2 then EncodeTwo(bs[0], bs[1])
    else
      assert (|bs| + 2) / 3 == (|bs[3..]| + 2) / 3 + 1;
      EncodeGroup(bs[0], bs[1], bs[2]) + Encode(bs[3..])
  }

  /** The byte spread over the first two characters of a group. */
  function High(i0: index, i1: index): byte {
    (i0 as int) * 4 + (i1 as int) / 16
  }

  /** The byte spread over the second and third characters of a group. */
  function Middle(i1: index, i2: index): byte {
    ((i1 as int) % 16) * 16 + (i2 as int) / 4
  }

  /** The byte spread over the last two characters of a group. */
  function Low(i2: index, i3: index): byte {
    ((i2 as int) % 4) * 64 + (i3 as int)
  }

  lemma HighRecombines(a: byte, b: byte)
    ensures High(a / 4, (a % 4) * 16 + b / 16) == a
  {
    var i1 := (a % 4) * 16 + b / 16;
    assert i1 / 16 == a % 4;
  }

  lemma MiddleRecombines(a: byte, b: byte, c: byte)
    ensures Middle((a % 4) * 16 + b / 16, (b % 16) * 4 + c / 64) == b
  {
    var i1 := (a % 4) * 16 + b / 16;
    var i2 := (b % 16) * 4 + c / 64;
    assert i1 % 16 == b / 16;
    assert i2 / 4 == b % 16;
  }

  lemma LowRecombines(b: byte, c: byte)
    ensures Low((b % 16) * 4 + c / 64, c % 64) == c
  {
    var i2 := (b % 16) * 4 + c / 64;
    assert i2 % 4 == c / 64;
  }

  /** Reads a group of four alphabet characters back into three bytes. */
  function DecodeGroup(s: string): Option<seq<byte>>
    requires |s| == 4
  {
    match (IndexOf(s[0]), IndexOf(s[1]), IndexOf(s[2]), IndexOf(s[3]))
    case (Some(i0), Some(i1), Some(i2), Some(i3)) =>
      Some([High(i0, i1), Middle(i1, i2), Low(i2, i3)])
    case _ => None
  }

  /** Reads the last group of four characters, which may carry one or two pads. */
  function DecodeLast(s: string): Option<seq<byte>>
    requires |s| == 4
  {
    if s[2] == '=' && s[3] == '=' then
      match (IndexOf(s[0]), IndexOf(s[1]))
      case (Some(i0), Some(i1)) => Some([High(i0, i1)])
      case _ => None
    else if s[3] == '=' then
      match (IndexOf(s[0]), IndexOf(s[1]), IndexOf(s[2]))
      case (Some(i0), Some(i1), Some(i2)) => Some([High(i0, i1), Middle(i1, i2)])
      case _ => None
    else DecodeGroup(s)
  }

  /** Base64 decoding: groups of four characters, padding only in the last group. */
  function Decode(s: string): Option<seq<byte>>
    decreases |s|
  {
    if |s| == 0 then Some([])
    else if |s| < 4 then None
    else if |s| == 4 then DecodeLast(s)
    else match (DecodeGroup(s[..4]), Decode(s[4..]))
      case (Some(g), Some(rest)) => Some(g + rest)
      case _ => None
  }

  lemma DecodeGroupEncodeGroup(a: byte, b: byte, c: byte)
    ensures DecodeGroup(EncodeGroup(a, b, c)) == Some([a, b, c])
  {
    IndexOfCharOf(a / 4);
    IndexOfCharOf((a % 4) * 16 + b / 16);
    IndexOfCharOf((b % 16) * 4 + c / 64);
    IndexOfCharOf(c % 64);
    HighRecombines(a, b);
    MiddleRecombines(a, b, c);
    LowRecombines(b, c);
  }

  lemma DecodeLastEncodeOne(a: byte)
    ensures DecodeLast(EncodeOne(a)) == Some([a])
  {
    IndexOfCharOf(a / 4);
    IndexOfCharOf((a % 4) * 16);
    HighRecombines(a, 0);
  }

  lemma DecodeLastEncodeTwo(a: byte, b: byte)
    ensures DecodeLast(EncodeTwo(a, b)) == Some([a, b])
  {
    var s := EncodeTwo(a, b);
    IndexOfCharOf(a / 4);
    IndexOfCharOf((a % 4) * 16 + b / 16);
    IndexOfCharOf((b % 16) * 4);
    HighRecombines(a, b);
    MiddleRecombines(a, b, 0);
    assert s[2] != '=' && s[3] == '=';
  }

  lemma DecodeLastEncodeThree(a: byte, b: byte, c: byte)
    ensures DecodeLast(EncodeGroup(a, b, c)) == Some([a, b, c])
  {
    var s := EncodeGroup(a, b, c);
    assert s[3] != '=';
    DecodeGroupEncodeGroup(a, b, c);
  }

  lemma DecodeLastEncodeLast(bs: seq<byte>)
    requires 1 <= |bs| <= 3
    ensures DecodeLast(Encode(bs)) == Some(bs)
  {
    if |bs| == 1 {
      assert Encode(bs) == EncodeOne(bs[0]);
      DecodeLastEncodeOne(bs[0]);
      assert bs == [bs[0]];
    } else if |bs| == 2 {
      assert Encode(bs) == EncodeTwo(bs[0], bs[1]);
      DecodeLastEncodeTwo(bs[0], bs[1]);
      assert bs == [bs[0], bs[1]];
    } else {
      assert Encode(bs[3..]) == "";
      assert Encode(bs) == EncodeGroup(bs[0], bs[1], bs[2]);
      DecodeLastEncodeThree(bs[0], bs[1], bs[2]);
      assert bs == [bs[0], bs[1], bs[2]];
    }
  }

  /** Decoding undoes encoding. */
  lemma {:induction false} DecodeEncode(bs: seq<byte>)
    ensures Decode(Encode(bs)) == Some(bs)
    decreases |bs|
  {
    if 1 <= |bs| <= 3 {
      DecodeLastEncodeLast(bs);
    } else if |bs| > 3 {
      var g := EncodeGroup(bs[0], bs[1], bs[2]);
      var s := g + Encode(bs[3..]);
      assert s[..4] == g;
      assert s[4..] == Encode(bs[3..]);
      DecodeGroupEncodeGroup(bs[0], bs[1], bs[2]);
      DecodeEncode(bs[3..]);
      assert [bs[0], bs[1], bs[2]] + bs[3..] == bs;
    }
  }

  /** Different byte sequences never share a base64 text. */
  lemma EncodeInjective(a: seq<byte>, b: seq<byte>)
    requires Encode(a) == Encode(b)
    ensures a == b
  {
    DecodeEncode(a);
    DecodeEncode(b);
  }
}

=== FILE: credentials.dfy ===
/**
 * The credential store of `Client` (src/client.js): one database-level pair,
 * a map from namespace name to a namespace-level pair, the two setters that
 * validate and overwrite one entry, and the two accessors.
 *
 * A JavaScript `ClientError` thrown by a setter becomes a `Failure`; the
 * client it was called on is left as it was, because every check runs
 * before the first assignment.
 */
module Credentials {
  import opened Wrappers
  import Decimal

  /** A user name and password pair. */
  datatype Cred = Cred(user: string, pass: string)

  /** A pair authorizes requests only when both halves are non-empty (truthy). */
  predicate IsSet(c: Cred) {
    c.user != "" && c.pass != ""
  }

  /** The private `#auth` record. */
  datatype Store = Store(db: Cred, ns: map<string, Cred>)

  /** A client: its base URL (`#connector`) and its credential store. */
  datatype Client = Client(connector: string, auth: Store)

  datatype Level = DatabaseLevel | NamespaceLevel

  /** The two kinds of `ClientError` the client throws. */
  datatype ClientError =
    | MissingParameter(index: nat, name: string)
    | MissingCredentials(level: Level)

  /** The text of a `ClientError`. */
  function Message(e: ClientError): string {
    match e
    case MissingParameter(index, name) => "Missing Parameter [" + Decimal.ToString(index) + "]: <" + name + ">"
    case MissingCredentials(DatabaseLevel) => "Missing Database-Level Credentials"
    case MissingCredentials(NamespaceLevel) => "Missing Namespace-Level Credentials"
  }

  /** Where the pieces of a five-piece concatenation sit. */
  lemma Layout(a: string, b: string, c: string, d: string, e: string)
    ensures var m := a + b + c + d + e;
            && |m| == |a| + |b| + |c| + |d| + |e|
            && m[..|a|] == a
            && m[|a|..|a| + |b|] == b
            && m[|a| + |b|..|a| + |b| + |c|] == c
            && m[|a| + |b| + |c|..|a| + |b| + |c| + |d|] == d
            && m[|a| + |b| + |c| + |d|..] == e
  {
    var m1 := a + b;
    var m2 := m1 + c;
    var m3 := m2 + d;
    var m := m3 + e;
    assert m[..|m3|] == m3 && m3[..|m2|] == m2 && m2[..|m1|] == m1;
    assert m[..|m1|] == m1;
    assert m[..|m2|] == m2;
  }

  /** A parameter message carries the index, in brackets, and the name, in angle brackets. */
  lemma ParameterMessageNamesIndex(index: nat, name: string)
    ensures var m := Message(MissingParameter(index, name));
            var d := |Decimal.ToString(index)|;
            && |m| == 24 + d + |name|
            && m[..19] == "Missing Parameter ["
            && Decimal.Parse(m[19..19 + d]) == Some(index)
            && m[19 + d..23 + d] == "]: <"
            && m[23 + d..23 + d + |name|] == name
            && m[23 + d + |name|] == '>'
  {
    var digits := Decimal.ToString(index);
    Layout("Missing Parameter [", digits, "]: <", name, ">");
    Decimal.ParseToString(index);
  }

  /**
   * What every store built by the constructor and the setters satisfies: no
   * namespace key is empty and every namespace pair is fully set.
   */
  ghost predicate Valid(s: Store) {
    forall k :: k in s.ns ==> k != "" && IsSet(s.ns[k])
  }

  /** The constructor: base URL from address and port, the given database pair, no namespaces. */
  function NewClient(address: string, port: nat, dbuser: string, dbpass: string): (c: Client)
    ensures |c.connector| > 7 + |Decimal.ToString(port)| && c.connector[..7] == "http://"
    ensures c.connector[|c.connector| - |Decimal.ToString(port)| - 1] == ':'
    ensures c.connector[7..|c.connector| - |Decimal.ToString(port)| - 1] == address
    ensures Decimal.Parse(c.connector[|c.connector| - |Decimal.ToString(port)|..]) == Some(port)
    ensures c.auth.db == Cred(dbuser, dbpass) && c.auth.ns == map[]
    ensures Valid(c.auth)
  {
    var digits := Decimal.ToString(port);
    var connector := "http://" + address + ":" + digits;
    assert connector[|connector| - |digits|..] == digits;
    assert connector[7..|connector| - |digits| - 1] == address;
    Decimal.ParseToString(port);
    Client(connector, Store(Cred(dbuser, dbpass), map[]))
  }

  /** `storedDBCredentials`: the database-level pair, as stored. */
  function StoredDBCredentials(c: Client): Cred {
    c.auth.db
  }

  /** `storedNSCredentials`: the pair stored for a namespace, or none (`undefined`). */
  function StoredNSCredentials(c: Client, nsname: string): (r: Option<Cred>)
    ensures r.Some? <==> nsname in c.auth.ns
    ensures r.Some? ==> r.value == c.auth.ns[nsname]
  {
    if nsname in c.auth.ns then Some(c.auth.ns[nsname]) else None
  }

  /** `setDatabaseCredentials`: checks username, then password, then overwrites the database pair. */
  function SetDatabaseCredentials(c: Client, username: string, password: string): (r: Result<Client, ClientError>)
    ensures username == "" ==> r == Failure(MissingParameter(0, "username"))
    ensures username != "" && password == "" ==> r == Failure(MissingParameter(1, "password"))
    ensures r.Success? <==> username != "" && password != ""
    ensures r.Success? ==> r.value.connector == c.connector && r.value.auth.ns == c.auth.ns
    ensures r.Success? ==> StoredDBCredentials(r.value) == Cred(username, password)
    ensures r.Success? ==> IsSet(r.value.auth.db)
    ensures r.Success? && Valid(c.auth) ==> Valid(r.value.auth)
  {
    if username == "" then Failure(MissingParameter(0, "username"))
    else if password == "" then Failure(MissingParameter(1, "password"))
    else Success(c.(auth := c.auth.(db := Cred(username, password))))
  }

  /**
   * `setNamespaceCredentials`: checks namespace name, username and password in
   * that order, then inserts or overwrites the pair of that one namespace.
   */
  function SetNamespaceCredentials(c: Client, nsname: string, username: string, password: string)
    : (r: Result<Client, ClientError>)
    ensures nsname == "" ==> r == Failure(MissingParameter(0, "namespace-name"))
    ensures nsname != "" && username == "" ==> r == Failure(MissingParameter(1, "username"))
    ensures nsname != "" && username != "" && password == "" ==> r == Failure(MissingParameter(2, "password"))
    ensures r.Success? <==> nsname != "" && username != "" && password != ""
    ensures r.Success? ==> r.value.connector == c.connector && r.value.auth.db == c.auth.db
    ensures r.Success? ==> StoredNSCredentials(r.value, nsname) == Some(Cred(username, password))
    ensures r.Success? ==> r.value.auth.ns.Keys == c.auth.ns.Keys + {nsname}
    ensures r.Success? ==> forall k :: k != nsname ==> StoredNSCredentials(r.value, k) == StoredNSCredentials(c, k)
    ensures r.Success? && Valid(c.auth) ==> Valid(r.value.auth)
  {
    if nsname == "" then Failure(MissingParameter(0, "namespace-name"))
    else if username == "" then Failure(MissingParameter(1, "username"))
    else if password == "" then Failure(MissingParameter(2, "password"))
    else Success(c.(auth := c.auth.(ns := c.auth.ns[nsname := Cred(username, password)])))
  }

  /** In a valid store the empty string is never a namespace key. */
  lemma EmptyNameNeverStored(c: Client)
    requires Valid(c.auth)
    ensures StoredNSCredentials(c, "") == None
  {
  }

  /** One setter call, as a caller issues it. */
  datatype Setter =
    | SetDatabase(username: string, password: string)
    | SetNamespace(nsname: string, username: string, password: string)

  /** The client after one setter call; a call that throws leaves it unchanged. */
  function Apply(c: Client, s: Setter): Client {
    var r := match s
      case SetDatabase(u, p) => SetDatabaseCredentials(c, u, p)
      case SetNamespace(n, u, p) => SetNamespaceCredentials(c, n, u, p);
    if r.Success? then r.value else c
  }

  /** The client after a sequence of setter calls, in order. */
  function Replay(c: Client, calls: seq<Setter>): Client
    decreases |calls|
  {
    if |calls| == 0 then c else Replay(Apply(c, calls[0]), calls[1..])
  }

  /**
   * The database pair a caller expects after a sequence of setter calls: the
   * last database setter call with both arguments given, or `d` if there is none.
   */
  function LastDatabasePair(d: Cred, calls: seq<Setter>): Cred
    decreases |calls|
  {
    if |calls| == 0 then d
    else
      var s := calls[|calls| - 1];
      if s.SetDatabase? && s.username != "" && s.password != "" then Cred(s.username, s.password)
      else LastDatabasePair(d, calls[..|calls| - 1])
  }

  /** `storedDBCredentials` after setter calls reads back the last database pair that was accepted. */
  lemma {:induction false} ReplayDatabasePair(c: Client, calls: seq<Setter>)
    ensures StoredDBCredentials(Replay(c, calls)) == LastDatabasePair(c.auth.db, calls)
    decreases |calls|
  {
    if |calls| > 0 {
      var init, last := calls[..|calls| - 1], calls[|calls| - 1];
      ReplaySnoc(c, init, last);
      assert calls == init + [last];
      ReplayDatabasePair(c, init);
    }
  }

  /** Replaying one more call applies it to the client the earlier calls produced. */
  lemma {:induction false} ReplaySnoc(c: Client, calls: seq<Setter>, last: Setter)
    ensures Replay(c, calls + [last]) == Apply(Replay(c, calls), last)
    decreases |calls|
  {
    if |calls| == 0 {
      assert [last][1..] == [];
    } else {
      assert (calls + [last])[1..] == calls[1..] + [last];
      ReplaySnoc(Apply(c, calls[0]), calls[1..], last);
    }
  }

  /** Every client reached from a valid one by setter calls is valid. */
  lemma {:induction false} ReplayKeepsValid(c: Client, calls: seq<Setter>)
    requires Valid(c.auth)
    ensures Valid(Replay(c, calls).auth)
    decreases |calls|
  {
    if |calls| > 0 {
      ReplayKeepsValid(Apply(c, calls[0]), calls[1..]);
    }
  }

  /** Every client a caller can build with the constructor and setters is valid. */
  lemma ReachableIsValid(address: string, port: nat, dbuser: string, dbpass: string, calls: seq<Setter>)
    ensures Valid(Replay(NewClient(address, port, dbuser, dbpass), calls).auth)
  {
    ReplayKeepsValid(NewClient(address, port, dbuser, dbpass), calls);
  }

  /** Whether a setter call writes the pair of namespace `k`. */
  predicate Touches(s: Setter, k: string) {
    s.SetNamespace? && s.nsname == k
  }

  /** Setter calls that never name namespace `k` leave its pair as it was. */
  lemma {:induction false} ReplayFrame(c: Client, calls: seq<Setter>, k: string)
    requires forall i :: 0 <= i < |calls| ==> !Touches(calls[i], k)
    ensures StoredNSCredentials(Replay(c, calls), k) == StoredNSCredentials(c, k)
    decreases |calls|
  {
    if |calls| > 0 {
      ReplayFrame(Apply(c, calls[0]), calls[1..], k);
    }
  }

  /** Namespace setters never change the database pair, and the connector never changes. */
  lemma {:induction false} ReplayKeepsConnector(c: Client, calls: seq<Setter>)
    ensures Replay(c, calls).connector == c.connector
    ensures (forall i :: 0 <= i < |calls| ==> calls[i].SetNamespace?) ==> Replay(c, calls).auth.db == c.auth.db
    decreases |calls|
  {
    if |calls| > 0 {
      ReplayKeepsConnector(Apply(c, calls[0]), calls[1..]);
    }
  }
}

=== FILE: decimal.dfy ===
/**
 * Decimal rendering of natural numbers, as JavaScript prints a non-negative
 * integer inside a template literal (a port in the base URL, a status code in
 * a rejection message, a parameter index in a validation message), and the
 * reading that recovers the number from its rendering.
 */
module Decimal {
  import opened Wrappers

  /** The character of a single decimal digit. */
  function DigitChar(d: nat): (c: char)
    requires d < 10
    ensures '0' <= c <= '9'
    ensures (c as int) - ('0' as int) == d
  {
    (('0' as int) + d) as char
  }

  predicate IsDigit(c: char) {
    '0' <= c <= '9'
  }

  /** Renders `n` in base ten, most significant digit first, without leading zeros. */
  function ToString(n: nat): (s: string)
    ensures |s| > 0
    ensures forall i :: 0 <= i < |s| ==> IsDigit(s[i])
    ensures |s| > 1 ==> s[0] != '0'
    decreases n
  {
    if n < 10 then [DigitChar(n)] else ToString(n / 10) + [DigitChar(n % 10)]
  }

  /** Reads a non-empty run of decimal digits; anything else is rejected. */
  function Parse(s: string): (r: Option<nat>)
    ensures r.Some? <==> |s| > 0 && forall i :: 0 <= i < |s| ==> IsDigit(s[i])
    decreases |s|
  {
    if |s| == 0 || !IsDigit(s[|s| - 1]) then None
    else if |s| == 1 then Some((s[0] as int) - ('0' as int))
    else match Parse(s[..|s| - 1])
      case None => None
      case Some(high) => Some(high * 10 + ((s[|s| - 1] as int) - ('0' as int)))
  }

  /** Reading a rendering gives back the number. */
  lemma {:induction false} ParseToString(n: nat)
    ensures Parse(ToString(n)) == Some(n)
    decreases n
  {
    if n >= 10 {
      var s := ToString(n);
      assert s[..|s| - 1] == ToString(n / 10);
      ParseToString(n / 10);
    }
  }

  /** Different numbers have different renderings. */
  lemma ToStringInjective(m: nat, n: nat)
    requires ToString(m) == ToString(n)
    ensures m == n
  {
    ParseToString(m);
    ParseToString(n);
  }
}

=== FILE: json.dfy ===
/** JSON values as the client hands them over, and JavaScript's truthiness test on them. */
module Json {

  datatype Json =
    | JNull
    | JBool(b: bool)
    | JNumber(n: int)
    | JString(s: string)
    | JArray(items: seq<Json>)
    | JObject(members: seq<(string, Json)>)

  /**
   * Whether `if (v)` takes the then-branch in JavaScript: `null`, `false`,
   * `0` and the empty string are falsy, every array and object is truthy.
   */
  predicate Truthy(v: Json) {
    match v
    case JNull => false
    case JBool(b) => b
    case JNumber(n) => n != 0
    case JString(s) => s != ""
    case JArray(_) => true
    case JObject(_) => true
  }
}

=== FILE: operations.dfy ===
/**
 * The seventeen operation methods of `Client` plus `hello` (src/client.js).
 * Every method follows one template: check the credentials of its scope,
 * check its arguments in declaration order, fill its route, and hand
 * `get` or `post` the URL, the payload and the pair of its scope.  An
 * operation is a value of `Operation`; `Perform` is that template.
 */
module Operations {
  import opened Wrappers
  import opened Json
  import opened Credentials
  import opened Transport
  import Unicode

  datatype Operation =
    // Database-level credentials
    | Hello
    | CreateNamespace(nsname: string)
    | RemoveNamespace(nsname: string)
    | ListNamespaces
    | CreateDatabaseUser(username: string, password: string)
    | RemoveDatabaseUser(username: string)
    | GetDatabaseUser(username: string)
    | ListDatabaseUsers
    // Namespace-level credentials
    | CreateCollection(nsname: string, colname: string)
    | RemoveCollection(nsname: string, colname: string)
    | ListCollections(nsname: string)
    | CreateDocument(nsname: string, colname: string, docname: string, docdata: Json)
    | RemoveDocument(nsname: string, colname: string, docname: string)
    | FetchDocument(nsname: string, colname: string, docname: string)
    | ListDocuments(nsname: string, colname: string)
    | CreateNamespaceUser(nsname: string, username: string, password: string)
    | RemoveNamespaceUser(nsname: string, username: string)
    | GetNamespaceUser(nsname: string, username: string)
    | ListNamespaceUsers(nsname: string)

  /** Whose credentials authorize an operation. */
  datatype Scope = DatabaseScope | NamespaceScope(name: string)

  predicate IsDatabaseOperation(op: Operation) {
    op.Hello? || op.CreateNamespace? || op.RemoveNamespace? || op.ListNamespaces?
    || op.CreateDatabaseUser? || op.RemoveDatabaseUser? || op.GetDatabaseUser? || op.ListDatabaseUsers?
  }

  function ScopeOf(op: Operation): Scope {
    if IsDatabaseOperation(op) then DatabaseScope else NamespaceScope(op.nsname)
  }

  function LevelOf(s: Scope): Level {
    match s
    case DatabaseScope => DatabaseLevel
    case NamespaceScope(_) => NamespaceLevel
  }

  /** The pair `(user, pass)` is the fully set pair the store holds for `scope`. */
  predicate Authorized(s: Store, scope: Scope, user: string, pass: string) {
    && user != "" && pass != ""
    && match scope
       case DatabaseScope => s.db == Cred(user, pass)
       case NamespaceScope(n) => n in s.ns && s.ns[n] == Cred(user, pass)
  }

  /** The pair the method reads for its scope, when both halves are truthy (`ns[nsname]?.user`). */
  function ScopeCredentials(s: Store, scope: Scope): (r: Option<Cred>)
    ensures r.Some? ==> Authorized(s, scope, r.value.user, r.value.pass)
    ensures r.None? ==> forall u, p :: !Authorized(s, scope, u, p)
  {
    match scope
    case DatabaseScope => if IsSet(s.db) then Some(s.db) else None
    case NamespaceScope(n) => if n in s.ns && IsSet(s.ns[n]) then Some(s.ns[n]) else None
  }

  /** A declared argument: the name its error message uses and whether the caller gave a truthy value. */
  datatype Param = Param(name: string, given: bool)

  /** A string argument is given when it is non-empty. */
  function Arg(name: string, value: string): Param {
    Param(name, value != "")
  }

  /** The checked arguments of each method, in declaration order. */
  function Params(op: Operation): seq<Param> {
    match op
    case Hello => []
    case CreateNamespace(n) => [Arg("namespace-name", n)]
    case RemoveNamespace(n) => [Arg("namespace-name", n)]
    case ListNamespaces => []
    case CreateDatabaseUser(u, p) => [Arg("username", u), Arg("password", p)]
    case RemoveDatabaseUser(u) => [Arg("username", u)]
    case GetDatabaseUser(u) => [Arg("username", u)]
    case ListDatabaseUsers => []
    case CreateCollection(n, c) => [Arg("namespace-name", n), Arg("collection-name", c)]
    case RemoveCollection(n, c) => [Arg("namespace-name", n), Arg("collection-name", c)]
    case ListCollections(n) => [Arg("namespace-name", n)]
    case CreateDocument(n, c, d, data) =>
      [Arg("namespace-name", n), Arg("collection-name", c), Arg("document-name", d),
       Param("document-data", Truthy(data))]
    case RemoveDocument(n, c, d) =>
      [Arg("namespace-name", n), Arg("collection-name", c), Arg("document-name", d)]
    case FetchDocument(n, c, d) =>
      [Arg("namespace-name", n), Arg("collection-name", c), Arg("document-name", d)]
    case ListDocuments(n, c) => [Arg("namespace-name", n), Arg("collection-name", c)]
    case CreateNamespaceUser(n, u, p) => [Arg("namespace-name", n), Arg("username", u), Arg("password", p)]
    case RemoveNamespaceUser(n, u) => [Arg("namespace-name", n), Arg("username", u)]
    case GetNamespaceUser(n, u) => [Arg("namespace-name", n), Arg("username", u)]
    case ListNamespaceUsers(n) => [Arg("namespace-name", n)]
  }

  /** The route each method appends to the connector, arguments filled in order. */
  function Route(op: Operation): string {
    match op
    case Hello => "/"
    case CreateNamespace(n) => "/nsp/new/" + n
    case RemoveNamespace(n) => "/nsp/del/" + n
    case ListNamespaces => "/nsp/all"
    case CreateDatabaseUser(u, _) => "/dbu/new/" + u
    case RemoveDatabaseUser(u) => "/dbu/del/" + u
    case GetDatabaseUser(u) => "/dbu/get/" + u
    case ListDatabaseUsers => "/dbu/all"
    case CreateCollection(n, c) => "/col/new/" + n + "/" + c
    case RemoveCollection(n, c) => "/col/del/" + n + "/" + c
    case ListCollections(n) => "/col/all/" + n
    case CreateDocument(n, c, d, _) => "/doc/new/" + n + "/" + c + "/" + d
    case RemoveDocument(n, c, d) => "/doc/del/" + n + "/" + c + "/" + d
    case FetchDocument(n, c, d) => "/doc/get/" + n + "/" + c + "/" + d
    case ListDocuments(n, c) => "/doc/all/" + n + "/" + c
    // The source sends this one to the document-listing path.
    case CreateNamespaceUser(n, u, _) => "/doc/all/" + n + "/" + u
    case RemoveNamespaceUser(n, u) => "/usr/del/" + n + "/" + u
    case GetNamespaceUser(n, u) => "/usr/get/" + n + "/" + u
    case ListNamespaceUsers(n) => "/usr/all/" + n
  }

  /** The body `post` is given; `get` methods have none. */
  function Payload(op: Operation): Option<Json> {
    match op
    case CreateDatabaseUser(_, p) => Some(JString(p))
    case CreateDocument(_, _, _, data) => Some(data)
    case CreateNamespaceUser(_, _, p) => Some(JString(p))
    case _ => None
  }

  /** A method calls `post` exactly when it has a payload. */
  function MethodOf(op: Operation): (m: Method)
    ensures m == POST <==> Payload(op).Some?
    ensures m == POST <==> op.CreateDatabaseUser? || op.CreateDocument? || op.CreateNamespaceUser?
  {
    if Payload(op).Some? then POST else GET
  }

  /** What a method hands to `get` or `post`. */
  datatype Call = Call(verb: Method, url: string, user: string, pass: string, body: Option<Json>)

  /** The position of the first argument that was not given, if any. */
  function FirstMissing(ps: seq<Param>): (r: Option<nat>)
    ensures r.Some? ==> r.value < |ps| && !ps[r.value].given
    ensures r.Some? ==> forall j :: 0 <= j < r.value ==> ps[j].given
    ensures r.None? ==> forall j :: 0 <= j < |ps| ==> ps[j].given
    decreases |ps|
  {
    if |ps| == 0 then None
    else if !ps[0].given then Some(0)
    else match FirstMissing(ps[1..])
      case None => None
      case Some(i) => Some(i + 1)
  }

  /**
   * One operation method: the scope check first, then the arguments in
   * declaration order, then the call with the scope's pair.
   */
  function Perform(c: Client, op: Operation): (r: Result<Call, ClientError>)
    ensures r.Success? ==> Authorized(c.auth, ScopeOf(op), r.value.user, r.value.pass)
    ensures r.Success? ==> r.value == Call(MethodOf(op), c.connector + Route(op), r.value.user, r.value.pass, Payload(op))
    ensures r == Failure(MissingCredentials(LevelOf(ScopeOf(op))))
        <==> forall u, p :: !Authorized(c.auth, ScopeOf(op), u, p)
    ensures forall i :: 0 <= i < |Params(op)| ==>
              (r == Failure(MissingParameter(i, Params(op)[i].name))
               <==> && ScopeCredentials(c.auth, ScopeOf(op)).Some?
                    && !Params(op)[i].given
                    && forall j :: 0 <= j < i ==> Params(op)[j].given)
    ensures r.Success? <==> ScopeCredentials(c.auth, ScopeOf(op)).Some?
                            && forall i :: 0 <= i < |Params(op)| ==> Params(op)[i].given
  {
    match ScopeCredentials(c.auth, ScopeOf(op))
    case None => Failure(MissingCredentials(LevelOf(ScopeOf(op))))
    case Some(cred) =>
      match FirstMissing(Params(op))
      case Some(i) => Failure(MissingParameter(i, Params(op)[i].name))
      case None => Success(Call(MethodOf(op), c.connector + Route(op), cred.user, cred.pass, Payload(op)))
  }

  /** A payload that passed the argument checks is truthy, so `post` writes it. */
  lemma GivenPayloadIsTruthy(op: Operation)
    requires forall i :: 0 <= i < |Params(op)| ==> Params(op)[i].given
    ensures Payload(op).Some? ==> Truthy(Payload(op).value)
  {
    match op {
      case CreateDatabaseUser(_, _) => assert Params(op)[1].given;
      case CreateDocument(_, _, _, _) => assert Params(op)[3].given;
      case CreateNamespaceUser(_, _, _) => assert Params(op)[2].given;
      case _ =>
    }
  }

  /** The data string `buildOptions` sees: none for `get`, the serialized payload for `post`. */
  function DataText(verb: Method, body: Option<Json>, stringify: Json -> string): string {
    if verb == GET then "" else DataString(body.GetOr(JNull), stringify)
  }

  /** `get` or `post`, as the method calls it. */
  function Send(call: Call, stringify: Json -> string): (r: Request)
    ensures r.url == call.url && r.options.verb == call.verb && r.options.timeout == TimeoutMs
    ensures AnnouncesAsWritten(r.options.headers, call.user, call.pass, DataText(call.verb, call.body, stringify))
    ensures call.verb == GET ==> r.body == None
    ensures call.verb == POST ==> (r.body.Some? <==> Truthy(call.body.GetOr(JNull)))
    ensures call.verb == POST && r.body.Some? ==> r.body == call.body
  {
    match call.verb
    case GET => Get(call.url, call.user, call.pass)
    case POST => Post(call.url, call.body.GetOr(JNull), call.user, call.pass, stringify)
  }

  /** An operation method end to end: validation, then the request it issues. */
  function Invoke(c: Client, op: Operation, stringify: Json -> string): (r: Result<Request, ClientError>)
    ensures r.Success? <==> Perform(c, op).Success?
    ensures r.Failure? ==> r.error == Perform(c, op).error
    ensures r.Success? ==>
              && ScopeCredentials(c.auth, ScopeOf(op)).Some?
              && var cred := ScopeCredentials(c.auth, ScopeOf(op)).value;
              && r.value.url == c.connector + Route(op)
              && r.value.options.verb == MethodOf(op)
              && r.value.options.timeout == TimeoutMs
              && AnnouncesAsWritten(r.value.options.headers, cred.user, cred.pass,
                                    DataText(MethodOf(op), Payload(op), stringify))
    ensures r.Success? && MethodOf(op) == GET ==> r.value.body == None
    ensures r.Success? && MethodOf(op) == POST ==> r.value.body == Payload(op)
  {
    var p := Perform(c, op);
    if p.Failure? then Failure(p.error)
    else
      GivenPayloadIsTruthy(op);
      Success(Send(p.value, stringify))
  }

  /** The scope of every namespace-level method is the namespace its first argument names. */
  lemma NamespaceNameComesFirst(op: Operation)
    requires ScopeOf(op).NamespaceScope?
    ensures |Params(op)| > 0 && Params(op)[0] == Arg("namespace-name", ScopeOf(op).name)
  {
  }

  /** In a valid store, the namespace-level credential check passes exactly for stored namespaces. */
  lemma NamespaceCheckInValidStore(c: Client, op: Operation)
    requires Valid(c.auth)
    requires ScopeOf(op).NamespaceScope?
    ensures ScopeCredentials(c.auth, ScopeOf(op)).Some? <==> op.nsname in c.auth.ns
  {
  }

  /**
   * A namespace-level method called with an empty namespace name on a valid
   * store fails on the credential check, so its own `Missing Parameter [0]`
   * check never fires.
   */
  lemma EmptyNamespaceFailsOnCredentials(c: Client, op: Operation)
    requires Valid(c.auth)
    requires ScopeOf(op) == NamespaceScope("")
    ensures Perform(c, op) == Failure(MissingCredentials(NamespaceLevel))
    ensures Message(Perform(c, op).error) == "Missing Namespace-Level Credentials"
  {
    EmptyNameNeverStored(c);
  }

  /** On a valid store no namespace-level method ever reports its namespace argument missing. */
  lemma NamespaceParameterCheckUnreachable(c: Client, op: Operation)
    requires Valid(c.auth)
    requires ScopeOf(op).NamespaceScope?
    ensures Perform(c, op) != Failure(MissingParameter(0, "namespace-name"))
  {
    NamespaceNameComesFirst(op);
    if ScopeOf(op).name == "" {
      EmptyNamespaceFailsOnCredentials(c, op);
    }
  }

  /** Database-level methods fail on an unset database pair before looking at any argument. */
  lemma DatabaseCheckComesFirst(c: Client, op: Operation)
    requires IsDatabaseOperation(op)
    requires !IsSet(c.auth.db)
    ensures Perform(c, op) == Failure(MissingCredentials(DatabaseLevel))
    ensures Message(Perform(c, op).error) == "Missing Database-Level Credentials"
  {
  }

  /** The call `createDatabaseUser('alice', 'pw')` makes on a client holding `dbuser:dbpass`. */
  lemma CreateDatabaseUserExampleCall(c: Client)
    requires c.auth.db == Cred("dbuser", "dbpass")
    ensures Perform(c, CreateDatabaseUser("alice", "pw"))
         == Success(Call(POST, c.connector + "/dbu/new/alice", "dbuser", "dbpass", Some(JString("pw"))))
  {
    var op := CreateDatabaseUser("alice", "pw");
    assert ScopeOf(op) == DatabaseScope;
    assert ScopeCredentials(c.auth, DatabaseScope) == Some(Cred("dbuser", "dbpass"));
    assert Params(op) == [Arg("username", "alice"), Arg("password", "pw")];
    assert FirstMissing(Params(op)) == None;
    assert Route(op) == "/dbu/new/alice";
    assert MethodOf(op) == POST;
  }

  /**
   * `createDatabaseUser('alice', 'pw')` on a client holding `dbuser:dbpass`
   * sends one POST to `/dbu/new/alice` with body `pw`, authenticated as
   * `dbuser:dbpass`.
   */
  lemma CreateDatabaseUserExample(c: Client, stringify: Json -> string)
    requires c.auth.db == Cred("dbuser", "dbpass")
    ensures
      var r := Invoke(c, CreateDatabaseUser("alice", "pw"), stringify);
      && r.Success?
      && r.value.url == c.connector + "/dbu/new/alice"
      && r.value.options.verb == POST
      && r.value.body == Some(JString("pw"))
      && r.value.options.headers["Content-Length"] == Count(2)
      && ReadBasicAuthorization(r.value.options.headers["Authorization"].text) == Some(("dbuser", "dbpass"))
  {
    var op := CreateDatabaseUser("alice", "pw");
    CreateDatabaseUserExampleCall(c);
    var r := Post(c.connector + "/dbu/new/alice", JString("pw"), "dbuser", "dbpass", stringify);
    assert Invoke(c, op, stringify) == Success(r);
    assert Unicode.Encode("pw") == [0x70, 0x77];
    assert r.options.headers["Content-Length"] == Count(2);
    ReadBasicAuthorizationRoundTrip("dbuser", "dbpass");
  }

  /** A method's outcome depends on the store only through the pair of its own scope. */
  lemma OnlyOwnScopeMatters(c1: Client, c2: Client, op: Operation)
    requires c1.connector == c2.connector
    requires ScopeCredentials(c1.auth, ScopeOf(op)) == ScopeCredentials(c2.auth, ScopeOf(op))
    ensures Perform(c1, op) == Perform(c2, op)
  {
  }

  /** Setting the pair of one namespace changes nothing for methods of any other namespace. */
  lemma OtherNamespaceSetterIrrelevant(c: Client, op: Operation, nsname: string, username: string, password: string)
    requires ScopeOf(op).NamespaceScope? && ScopeOf(op).name != nsname
    requires SetNamespaceCredentials(c, nsname, username, password).Success?
    ensures Perform(SetNamespaceCredentials(c, nsname, username, password).value, op) == Perform(c, op)
  {
    var c' := SetNamespaceCredentials(c, nsname, username, password).value;
    assert StoredNSCredentials(c', ScopeOf(op).name) == StoredNSCredentials(c, ScopeOf(op).name);
    OnlyOwnScopeMatters(c', c, op);
  }

  /** Setting the database pair changes nothing for namespace-level methods. */
  lemma DatabaseSetterIrrelevantToNamespaces(c: Client, op: Operation, username: string, password: string)
    requires ScopeOf(op).NamespaceScope?
    requires SetDatabaseCredentials(c, username, password).Success?
    ensures Perform(SetDatabaseCredentials(c, username, password).value, op) == Perform(c, op)
  {
    OnlyOwnScopeMatters(SetDatabaseCredentials(c, username, password).value, c, op);
  }
}

=== FILE: routing.dfy ===
/**
 * Routes read back.  Every route is a fixed template prefix followed by the
 * method's URL arguments, one path segment each, in declaration order.  The
 * server side of that convention is `ParseRequest`, which recovers the
 * operation from the HTTP method and the path segments.  Together they show
 * which requests the server can tell apart, and where it cannot.
 */
module Routing {
  import opened Wrappers
  import opened Json
  import opened Transport
  import opened Operations
  import Credentials
  import Sequences

  /** The fixed segments of each route template. */
  function Prefix(op: Operation): seq<string> {
    match op
    case Hello => []
    case CreateNamespace(_) => ["nsp", "new"]
    case RemoveNamespace(_) => ["nsp", "del"]
    case ListNamespaces => ["nsp", "all"]
    case CreateDatabaseUser(_, _) => ["dbu", "new"]
    case RemoveDatabaseUser(_) => ["dbu", "del"]
    case GetDatabaseUser(_) => ["dbu", "get"]
    case ListDatabaseUsers => ["dbu", "all"]
    case CreateCollection(_, _) => ["col", "new"]
    case RemoveCollection(_, _) => ["col", "del"]
    case ListCollections(_) => ["col", "all"]
    case CreateDocument(_, _, _, _) => ["doc", "new"]
    case RemoveDocument(_, _, _) => ["doc", "del"]
    case FetchDocument(_, _, _) => ["doc", "get"]
    case ListDocuments(_, _) => ["doc", "all"]
    case CreateNamespaceUser(_, _, _) => ["doc", "all"]
    case RemoveNamespaceUser(_, _) => ["usr", "del"]
    case GetNamespaceUser(_, _) => ["usr", "get"]
    case ListNamespaceUsers(_) => ["usr", "all"]
  }

  /** The arguments that go into the URL, in declaration order (payloads travel in the body). */
  function UrlArgs(op: Operation): seq<string> {
    match op
    case Hello => []
    case CreateNamespace(n) => [n]
    case RemoveNamespace(n) => [n]
    case ListNamespaces => []
    case CreateDatabaseUser(u, _) => [u]
    case RemoveDatabaseUser(u) => [u]
    case GetDatabaseUser(u) => [u]
    case ListDatabaseUsers => []
    case CreateCollection(n, c) => [n, c]
    case RemoveCollection(n, c) => [n, c]
    case ListCollections(n) => [n]
    case CreateDocument(n, c, d, _) => [n, c, d]
    case RemoveDocument(n, c, d) => [n, c, d]
    case FetchDocument(n, c, d) => [n, c, d]
    case ListDocuments(n, c) => [n, c]
    case CreateNamespaceUser(n, u, _) => [n, u]
    case RemoveNamespaceUser(n, u) => [n, u]
    case GetNamespaceUser(n, u) => [n, u]
    case ListNamespaceUsers(n) => [n]
  }

  /** Each segment after a slash, built left to right as a template literal is. */
  function Slashed(segments: seq<string>): string
    decreases |segments|
  {
    if |segments| == 0 then "" else Slashed(segments[..|segments| - 1]) + "/" + segments[|segments| - 1]
  }

  /** A path built from segments: `/` alone, or each segment after a slash. */
  function PathOf(segments: seq<string>): string {
    if |segments| == 0 then "/" else Slashed(segments)
  }

  /** The segments of a path that starts with a slash. */
  function SplitPath(path: string): seq<string> {
    if |path| <= 1 then [] else Sequences.Split(path[1..], '/')
  }

  /** Slashed segments are a slash followed by the segments joined with slashes. */
  lemma {:induction false} SlashedIsJoin(segments: seq<string>)
    requires |segments| > 0
    ensures Slashed(segments) == "/" + Sequences.Join(segments, '/')
    decreases |segments|
  {
    var init, last := segments[..|segments| - 1], segments[|segments| - 1];
    if |init| > 0 {
      SlashedIsJoin(init);
      Sequences.JoinSnoc(init, last, '/');
      assert init + [last] == segments;
    }
  }

  /** Non-empty segments without slashes are read back as they were written. */
  lemma SplitPathOf(segments: seq<string>)
    requires forall i :: 0 <= i < |segments| ==> segments[i] != "" && '/' !in segments[i]
    ensures SplitPath(PathOf(segments)) == segments
  {
    if |segments| > 0 {
      var joined := Sequences.Join(segments, '/');
      SlashedIsJoin(segments);
      JoinLength(segments);
      assert ("/" + joined)[1..] == joined;
      Sequences.SplitJoin(segments, '/');
    }
  }

  lemma {:induction false} JoinLength(segments: seq<string>)
    requires |segments| > 0
    ensures |Sequences.Join(segments, '/')| >= |segments[0]|
    decreases |segments|
  {
    if |segments| > 1 {
      JoinLength(segments[1..]);
    }
  }

  /** The two fixed segments of a template, as the literal that starts the route. */
  lemma SlashedPair(a: string, b: string)
    ensures Slashed([a, b]) == "/" + a + "/" + b
  {
    assert [a, b][..1] == [a];
    assert [a][..0] == [];
    assert Slashed([a]) == "" + "/" + a;
    assert "" + "/" + a == "/" + a;
  }

  lemma Slashed3(a: string, b: string, x: string)
    ensures Slashed([a, b, x]) == Slashed([a, b]) + "/" + x
  {
    assert [a, b, x][..2] == [a, b];
  }

  lemma Slashed4(a: string, b: string, x: string, y: string)
    ensures Slashed([a, b, x, y]) == Slashed([a, b]) + "/" + x + "/" + y
  {
    assert [a, b, x, y][..3] == [a, b, x];
    Slashed3(a, b, x);
  }

  lemma Slashed5(a: string, b: string, x: string, y: string, z: string)
    ensures Slashed([a, b, x, y, z]) == Slashed([a, b]) + "/" + x + "/" + y + "/" + z
  {
    assert [a, b, x, y, z][..4] == [a, b, x, y];
    Slashed4(a, b, x, y);
  }

  /** The literal start of a route: slash, area, slash, action, slash. */
  lemma RouteStart(a: string, b: string, literal: string)
    requires literal == "/" + a + "/" + b + "/"
    ensures Slashed([a, b]) + "/" == literal
  {
    SlashedPair(a, b);
  }

  /** Routes of the database-level methods fill their templates. */
  lemma DatabaseRoutesFillTemplates(op: Operation)
    requires IsDatabaseOperation(op)
    ensures Route(op) == PathOf(Prefix(op) + UrlArgs(op))
  {
    match op {
      case Hello =>
      case CreateNamespace(n) =>
        assert Prefix(op) + UrlArgs(op) == ["nsp", "new", n];
        Slashed3("nsp", "new", n); RouteStart("nsp", "new", "/nsp/new/");
      case RemoveNamespace(n) =>
        assert Prefix(op) + UrlArgs(op) == ["nsp", "del", n];
        Slashed3("nsp", "del", n); RouteStart("nsp", "del", "/nsp/del/");
      case ListNamespaces =>
        assert Prefix(op) + UrlArgs(op) == ["nsp", "all"];
        SlashedPair("nsp", "all");
        assert "/" + "nsp" + "/" + "all" == "/nsp/all";
      case CreateDatabaseUser(u, _) =>
        assert Prefix(op) + UrlArgs(op) == ["dbu", "new", u];
        Slashed3("dbu", "new", u); RouteStart("dbu", "new", "/dbu/new/");
      case RemoveDatabaseUser(u) =>
        assert Prefix(op) + UrlArgs(op) == ["dbu", "del", u];
        Slashed3("dbu", "del", u); RouteStart("dbu", "del", "/dbu/del/");
      case GetDatabaseUser(u) =>
        assert Prefix(op) + UrlArgs(op) == ["dbu", "get", u];
        Slashed3("dbu", "get", u); RouteStart("dbu", "get", "/dbu/get/");
      case ListDatabaseUsers =>
        assert Prefix(op) + UrlArgs(op) == ["dbu", "all"];
        SlashedPair("dbu", "all");
        assert "/" + "dbu" + "/" + "all" == "/dbu/all";
    }
  }

  /** Routes of the collection methods fill their templates. */
  lemma CollectionRoutesFillTemplates(op: Operation)
    requires op.CreateCollection? || op.RemoveCollection? || op.ListCollections?
    ensures Route(op) == PathOf(Prefix(op) + UrlArgs(op))
  {
    match op {
      case CreateCollection(n, c) =>
        assert Prefix(op) + UrlArgs(op) == ["col", "new", n, c];
        Slashed4("col", "new", n, c); RouteStart("col", "new", "/col/new/");
      case RemoveCollection(n, c) =>
        assert Prefix(op) + UrlArgs(op) == ["col", "del", n, c];
        Slashed4("col", "del", n, c); RouteStart("col", "del", "/col/del/");
      case ListCollections(n) =>
        assert Prefix(op) + UrlArgs(op) == ["col", "all", n];
        Slashed3("col", "all", n); RouteStart("col", "all", "/col/all/");
    }
  }

  /** Routes of the document methods fill their templates. */
  lemma DocumentRoutesFillTemplates(op: Operation)
    requires op.CreateDocument? || op.RemoveDocument? || op.FetchDocument? || op.ListDocuments?
    ensures Route(op) == PathOf(Prefix(op) + UrlArgs(op))
  {
    match op {
      case CreateDocument(n, c, d, _) =>
        assert Prefix(op) + UrlArgs(op) == ["doc", "new", n, c, d];
        Slashed5("doc", "new", n, c, d); RouteStart("doc", "new", "/doc/new/");
      case RemoveDocument(n, c, d) =>
        assert Prefix(op) + UrlArgs(op) == ["doc", "del", n, c, d];
        Slashed5("doc", "del", n, c, d); RouteStart("doc", "del", "/doc/del/");
      case FetchDocument(n, c, d) =>
        assert Prefix(op) + UrlArgs(op) == ["doc", "get", n, c, d];
        Slashed5("doc", "get", n, c, d); RouteStart("doc", "get", "/doc/get/");
      case ListDocuments(n, c) =>
        assert Prefix(op) + UrlArgs(op) == ["doc", "all", n, c];
        Slashed4("doc", "all", n, c); RouteStart("doc", "all", "/doc/all/");
    }
  }

  /** Routes of the namespace-user methods fill their templates. */
  lemma UserRoutesFillTemplates(op: Operation)
    requires op.CreateNamespaceUser? || op.RemoveNamespaceUser? || op.GetNamespaceUser? || op.ListNamespaceUsers?
    ensures Route(op) == PathOf(Prefix(op) + UrlArgs(op))
  {
    match op {
      case CreateNamespaceUser(n, u, _) =>
        assert Prefix(op) + UrlArgs(op) == ["doc", "all", n, u];
        Slashed4("doc", "all", n, u); RouteStart("doc", "all", "/doc/all/");
      case RemoveNamespaceUser(n, u) =>
        assert Prefix(op) + UrlArgs(op) == ["usr", "del", n, u];
        Slashed4("usr", "del", n, u); RouteStart("usr", "del", "/usr/del/");
      case GetNamespaceUser(n, u) =>
        assert Prefix(op) + UrlArgs(op) == ["usr", "get", n, u];
        Slashed4("usr", "get", n, u); RouteStart("usr", "get", "/usr/get/");
      case ListNamespaceUsers(n) =>
        assert Prefix(op) + UrlArgs(op) == ["usr", "all", n];
        Slashed3("usr", "all", n); RouteStart("usr", "all", "/usr/all/");
    }
  }

  /** Each route is its template prefix followed by its URL arguments, one segment each. */
  lemma RouteFillsTemplate(op: Operation)
    ensures Route(op) == PathOf(Prefix(op) + UrlArgs(op))
  {
    if IsDatabaseOperation(op) {
      DatabaseRoutesFillTemplates(op);
    } else if op.CreateCollection? || op.RemoveCollection? || op.ListCollections? {
      CollectionRoutesFillTemplates(op);
    } else if op.CreateDocument? || op.RemoveDocument? || op.FetchDocument? || op.ListDocuments? {
      DocumentRoutesFillTemplates(op);
    } else {
      UserRoutesFillTemplates(op);
    }
  }

  /** The operation with its body payload dropped: all that method and URL can carry. */
  function Erase(op: Operation): Operation {
    match op
    case CreateDatabaseUser(u, _) => CreateDatabaseUser(u, "")
    case CreateDocument(n, c, d, _) => CreateDocument(n, c, d, JNull)
    case CreateNamespaceUser(n, u, _) => CreateNamespaceUser(n, u, "")
    case _ => op
  }

  /**
   * A reading of an HTTP method and path segments back into an operation,
   * template by template; it stands for any server that routes on these templates.
   */
  function ParseRequest(verb: Method, segments: seq<string>): Option<Operation> {
    if |segments| == 0 then (if verb == GET then Some(Hello) else None)
    else if |segments| < 2 then None
    else
      var area, action, args := segments[0], segments[1], segments[2..];
      match verb
      case POST =>
        if area == "dbu" && action == "new" && |args| == 1 then Some(CreateDatabaseUser(args[0], ""))
        else if area == "doc" && action == "new" && |args| == 3 then Some(CreateDocument(args[0], args[1], args[2], JNull))
        else if area == "doc" && action == "all" && |args| == 2 then Some(CreateNamespaceUser(args[0], args[1], ""))
        else None
      case GET =>
        if area == "nsp" then
          if action == "new" && |args| == 1 then Some(CreateNamespace(args[0]))
          else if action == "del" && |args| == 1 then Some(RemoveNamespace(args[0]))
          else if action == "all" && |args| == 0 then Some(ListNamespaces)
          else None
        else if area == "dbu" then
          if action == "del" && |args| == 1 then Some(RemoveDatabaseUser(args[0]))
          else if action == "get" && |args| == 1 then Some(GetDatabaseUser(args[0]))
          else if action == "all" && |args| == 0 then Some(ListDatabaseUsers)
          else None
        else if area == "col" then
          if action == "new" && |args| == 2 then Some(CreateCollection(args[0], args[1]))
          else if action == "del" && |args| == 2 then Some(RemoveCollection(args[0], args[1]))
          else if action == "all" && |args| == 1 then Some(ListCollections(args[0]))
          else None
        else if area == "doc" then
          if action == "del" && |args| == 3 then Some(RemoveDocument(args[0], args[1], args[2]))
          else if action == "get" && |args| == 3 then Some(FetchDocument(args[0], args[1], args[2]))
          else if action == "all" && |args| == 2 then Some(ListDocuments(args[0], args[1]))
          else None
        else if area == "usr" then
          if action == "del" && |args| == 2 then Some(RemoveNamespaceUser(args[0], args[1]))
          else if action == "get" && |args| == 2 then Some(GetNamespaceUser(args[0], args[1]))
          else if action == "all" && |args| == 1 then Some(ListNamespaceUsers(args[0]))
          else None
        else None
  }

  /** URL arguments that are non-empty and contain no slash, so that each stays one segment. */
  predicate PlainArgs(op: Operation) {
    forall i :: 0 <= i < |UrlArgs(op)| ==> UrlArgs(op)[i] != "" && '/' !in UrlArgs(op)[i]
  }

  /** The server reads the segments of a database-level method as that method. */
  lemma ParseDatabaseTemplates(op: Operation)
    requires IsDatabaseOperation(op)
    ensures ParseRequest(MethodOf(op), Prefix(op) + UrlArgs(op)) == Some(Erase(op))
  {
    match op {
      case Hello =>
      case CreateNamespace(n) => assert Prefix(op) + UrlArgs(op) == ["nsp", "new", n];
      case RemoveNamespace(n) => assert Prefix(op) + UrlArgs(op) == ["nsp", "del", n];
      case ListNamespaces => assert Prefix(op) + UrlArgs(op) == ["nsp", "all"];
      case CreateDatabaseUser(u, _) => assert Prefix(op) + UrlArgs(op) == ["dbu", "new", u];
      case RemoveDatabaseUser(u) => assert Prefix(op) + UrlArgs(op) == ["dbu", "del", u];
      case GetDatabaseUser(u) => assert Prefix(op) + UrlArgs(op) == ["dbu", "get", u];
      case ListDatabaseUsers => assert Prefix(op) + UrlArgs(op) == ["dbu", "all"];
    }
  }

  /** The server reads the segments of a collection or document method as that method. */
  lemma ParseContentTemplates(op: Operation)
    requires op.CreateCollection? || op.RemoveCollection? || op.ListCollections?
          || op.CreateDocument? || op.RemoveDocument? || op.FetchDocument? || op.ListDocuments?
    ensures ParseRequest(MethodOf(op), Prefix(op) + UrlArgs(op)) == Some(Erase(op))
  {
    match op {
      case CreateCollection(n, c) => assert Prefix(op) + UrlArgs(op) == ["col", "new", n, c];
      case RemoveCollection(n, c) => assert Prefix(op) + UrlArgs(op) == ["col", "del", n, c];
      case ListCollections(n) => assert Prefix(op) + UrlArgs(op) == ["col", "all", n];
      case CreateDocument(n, c, d, _) => assert Prefix(op) + UrlArgs(op) == ["doc", "new", n, c, d];
      case RemoveDocument(n, c, d) => assert Prefix(op) + UrlArgs(op) == ["doc", "del", n, c, d];
      case FetchDocument(n, c, d) => assert Prefix(op) + UrlArgs(op) == ["doc", "get", n, c, d];
      case ListDocuments(n, c) => assert Prefix(op) + UrlArgs(op) == ["doc", "all", n, c];
    }
  }

  /** The server reads the segments of a namespace-user method as that method. */
  lemma ParseUserTemplates(op: Operation)
    requires op.CreateNamespaceUser? || op.RemoveNamespaceUser? || op.GetNamespaceUser? || op.ListNamespaceUsers?
    ensures ParseRequest(MethodOf(op), Prefix(op) + UrlArgs(op)) == Some(Erase(op))
  {
    match op {
      case CreateNamespaceUser(n, u, _) => assert Prefix(op) + UrlArgs(op) == ["doc", "all", n, u];
      case RemoveNamespaceUser(n, u) => assert Prefix(op) + UrlArgs(op) == ["usr", "del", n, u];
      case GetNamespaceUser(n, u) => assert Prefix(op) + UrlArgs(op) == ["usr", "get", n, u];
      case ListNamespaceUsers(n) => assert Prefix(op) + UrlArgs(op) == ["usr", "all", n];
    }
  }

  /** The server reads back every request with plain arguments as the operation that sent it. */
  lemma ParseRequestRoundTrip(op: Operation)
    requires PlainArgs(op)
    ensures ParseRequest(MethodOf(op), SplitPath(Route(op))) == Some(Erase(op))
  {
    var segments := Prefix(op) + UrlArgs(op);
    forall i | 0 <= i < |segments| ensures segments[i] != "" && '/' !in segments[i] {
      if i >= |Prefix(op)| {
        assert segments[i] == UrlArgs(op)[i - |Prefix(op)|];
      }
    }
    RouteFillsTemplate(op);
    SplitPathOf(segments);
    if IsDatabaseOperation(op) {
      ParseDatabaseTemplates(op);
    } else if op.CreateNamespaceUser? || op.RemoveNamespaceUser? || op.GetNamespaceUser? || op.ListNamespaceUsers? {
      ParseUserTemplates(op);
    } else {
      ParseContentTemplates(op);
    }
  }

  /** Two requests with plain arguments that share method and URL come from the same operation, up to the body. */
  lemma RequestIdentifiesOperation(op1: Operation, op2: Operation)
    requires PlainArgs(op1) && PlainArgs(op2)
    requires MethodOf(op1) == MethodOf(op2) && Route(op1) == Route(op2)
    ensures Erase(op1) == Erase(op2)
  {
    ParseRequestRoundTrip(op1);
    ParseRequestRoundTrip(op2);
  }

  /**
   * `createNamespaceUser` posts to the path `listDocuments` reads; only the
   * HTTP method tells the two apart.
   */
  lemma NamespaceUserRouteIsDocumentListing(nsname: string, username: string, password: string)
    ensures Route(CreateNamespaceUser(nsname, username, password)) == Route(ListDocuments(nsname, username))
    ensures MethodOf(CreateNamespaceUser(nsname, username, password)) == POST
    ensures MethodOf(ListDocuments(nsname, username)) == GET
  {
  }

  /** Arguments are not escaped: a slash inside one moves the segment boundary. */
  lemma SlashInArgumentIsAmbiguous()
    ensures Route(RemoveDocument("a", "b/c", "d")) == Route(RemoveDocument("a", "b", "c/d"))
  {
    assert "/doc/del/" + "a" + "/" + "b/c" + "/" + "d" == "/doc/del/" + "a" + "/" + "b" + "/" + "c/d";
  }

  /** The URL arguments are the leading declared arguments, checked for non-emptiness. */
  lemma UrlArgsLeadParams(op: Operation)
    ensures |UrlArgs(op)| <= |Params(op)|
    ensures forall i :: 0 <= i < |UrlArgs(op)| ==> Params(op)[i].given == (UrlArgs(op)[i] != "")
  {
  }

  /** A successful method call only ever puts non-empty arguments in its URL. */
  lemma PerformedArgsAreNonEmpty(c: Credentials.Client, op: Operation)
    requires Perform(c, op).Success?
    ensures forall i :: 0 <= i < |UrlArgs(op)| ==> UrlArgs(op)[i] != ""
  {
    UrlArgsLeadParams(op);
  }
}

=== FILE: sequences.dfy ===
/** Searching and splitting sequences, shared by header and route reading. */
module Sequences {
  import opened Wrappers

  /** The position of the first occurrence of `x` in `s`, if any. */
  function FirstIndex<T(==)>(s: seq<T>, x: T): (r: Option<nat>)
    ensures r.None? <==> x !in s
    ensures r.Some? ==> r.value < |s| && s[r.value] == x && x !in s[..r.value]
    decreases |s|
  {
    if |s| == 0 then None
    else if s[0] == x then Some(0)
    else match FirstIndex(s[1..], x)
      case None => None
      case Some(i) =>
        assert s[..i + 1] == [s[0]] + s[1..][..i];
        Some(i + 1)
  }

  /** The first occurrence of `x` in `a + [x] + rest` is the one right after `a` when `a` has none. */
  lemma FirstIndexAfter<T>(a: seq<T>, x: T, rest: seq<T>)
    requires x !in a
    ensures FirstIndex(a + [x] + rest, x) == Some(|a|)
  {
    var s := a + [x] + rest;
    assert s[|a|] == x;
    assert s[..|a|] == a;
  }

  /** Joins non-empty-list `parts` with `sep` between neighbours. */
  function Join<T>(parts: seq<seq<T>>, sep: T): seq<T>
    requires |parts| > 0
    decreases |parts|
  {
    if |parts| == 1 then parts[0] else parts[0] + [sep] + Join(parts[1..], sep)
  }

  /** Cuts `s` at every occurrence of `sep`. */
  function Split<T(==)>(s: seq<T>, sep: T): (parts: seq<seq<T>>)
    ensures |parts| > 0
    decreases |s|
  {
    match FirstIndex(s, sep)
    case None => [s]
    case Some(i) => [s[..i]] + Split(s[i + 1..], sep)
  }

  /** Splitting undoes joining when no part contains the separator. */
  lemma {:induction false} SplitJoin<T>(parts: seq<seq<T>>, sep: T)
    requires |parts| > 0
    requires forall i :: 0 <= i < |parts| ==> sep !in parts[i]
    ensures Split(Join(parts, sep), sep) == parts
    decreases |parts|
  {
    if |parts| == 1 {
      assert FirstIndex(parts[0], sep).None?;
    } else {
      var rest := Join(parts[1..], sep);
      var s := parts[0] + [sep] + rest;
      FirstIndexAfter(parts[0], sep, rest);
      assert s[..|parts[0]|] == parts[0];
      assert s[|parts[0]| + 1..] == rest;
      SplitJoin(parts[1..], sep);
      assert [parts[0]] + parts[1..] == parts;
    }
  }

  /** Joining one more part at the end adds a separator and that part. */
  lemma {:induction false} JoinSnoc<T>(parts: seq<seq<T>>, last: seq<T>, sep: T)
    requires |parts| > 0
    ensures Join(parts + [last], sep) == Join(parts, sep) + [sep] + last
    decreases |parts|
  {
    var all := parts + [last];
    assert all[0] == parts[0];
    if |parts| == 1 {
      assert all[1..] == [last];
    } else {
      assert all[1..] == parts[1..] + [last];
      JoinSnoc(parts[1..], last, sep);
    }
  }
}

=== FILE: transport.dfy ===
/**
 * The transport helpers of `utils.js`: the request options (`buildOptions`),
 * the two entry points `get` and `post`, and how a finished exchange settles
 * the promise `request` returns.  The socket itself is not modelled: a request
 * ends in one `Event` that the network hands back.
 */
module Transport {
  import opened Wrappers
  import opened Json
  import Unicode
  import Base64
  import Decimal
  import Sequences

  /** The fixed request timeout, in milliseconds. */
  const TimeoutMs: nat := 6000

  const FormUrlEncoded: string := "application/x-www-form-urlencoded"

  datatype Method = GET | POST

  /** A header value: `Content-Length` is set from a number, the others from strings. */
  datatype HeaderValue = Text(text: string) | Count(count: nat)

  /** The options object handed to `http.request`. */
  datatype Options = Options(verb: Method, timeout: nat, headers: map<string, HeaderValue>)

  /** A request ready for the network: URL, options and the value written as the body, if any. */
  datatype Request = Request(url: string, options: Options, body: Option<Json>)

  /**
   * The Authorization header value of HTTP Basic authentication (section 2 of
   * RFC 7617): the scheme name, a space, and the base64 of the UTF-8 bytes of
   * `user:pass`.
   */
  function BasicAuthorization(username: string, password: string): (h: string)
    ensures |h| >= 6 && h[..6] == "Basic "
    ensures h[6..] == Base64.Encode(Unicode.Encode(username + ":" + password))
    ensures Base64.Decode(h[6..]) == Some(Unicode.Encode(username + ":" + password))
  {
    var token := Base64.Encode(Unicode.Encode(username + ":" + password));
    Base64.DecodeEncode(Unicode.Encode(username + ":" + password));
    assert ("Basic " + token)[6..] == token;
    "Basic " + token
  }

  /**
   * How a server reads a Basic Authorization header: strip the scheme, decode
   * the base64 token, split at the first colon and decode both halves as UTF-8.
   */
  function ReadBasicAuthorization(h: string): Option<(string, string)> {
    if |h| < 6 || h[..6] != "Basic " then None
    else match Base64.Decode(h[6..])
      case None => None
      case Some(bytes) =>
        match Sequences.FirstIndex(bytes, ':' as int)
        case None => None
        case Some(i) =>
          match (Unicode.Decode(bytes[..i]), Unicode.Decode(bytes[i + 1..]))
          case (Some(user), Some(pass)) => Some((user, pass))
          case _ => None
  }

  /** The bytes inside the header: the user name's, one colon byte, the password's. */
  lemma CredentialBytes(username: string, password: string)
    ensures Unicode.Encode(username + ":" + password)
         == Unicode.Encode(username) + [':' as int] + Unicode.Encode(password)
    ensures ':' !in username ==> (':' as int) !in Unicode.Encode(username)
  {
    Unicode.EncodeAppend(username, ":");
    Unicode.EncodeAppend(username + ":", password);
    assert Unicode.Encode(":") == [':' as int];
    if ':' !in username && (':' as int) in Unicode.Encode(username) {
      Unicode.AsciiByteComesFromChar(username, ':' as int);
    }
  }

  /** A header whose token holds a colon-free first half, a colon and a second half is read as those halves. */
  lemma ReadSplitToken(h: string, u: seq<Unicode.byte>, p: seq<Unicode.byte>, user: string, pass: string)
    requires |h| >= 6 && h[..6] == "Basic "
    requires Base64.Decode(h[6..]) == Some(u + [':' as int] + p)
    requires (':' as int) !in u
    requires Unicode.Decode(u) == Some(user) && Unicode.Decode(p) == Some(pass)
    ensures ReadBasicAuthorization(h) == Some((user, pass))
  {
    var bytes := u + [':' as int] + p;
    Sequences.FirstIndexAfter(u, ':' as int, p);
    assert bytes[..|u|] == u;
    assert bytes[|u| + 1..] == p;
  }

  /** A colon-free user name and any password survive the trip through the header. */
  lemma ReadBasicAuthorizationRoundTrip(username: string, password: string)
    requires ':' !in username
    ensures ReadBasicAuthorization(BasicAuthorization(username, password)) == Some((username, password))
  {
    CredentialBytes(username, password);
    Unicode.DecodeEncode(username);
    Unicode.DecodeEncode(password);
    ReadSplitToken(BasicAuthorization(username, password), Unicode.Encode(username), Unicode.Encode(password),
                   username, password);
  }

  /**
   * The header does not separate a colon in the user name from the separator:
   * the pairs ("a:b", "c") and ("a", "b:c") send the same header.
   */
  lemma ColonInUserNameIsAmbiguous()
    ensures BasicAuthorization("a:b", "c") == BasicAuthorization("a", "b:c")
  {
    assert "a:b" + ":" + "c" == "a" + ":" + "b:c";
  }

  /** Whether `buildOptions` sees data: it tests the data string for truthiness. */
  predicate HasData(data: Option<string>) {
    data.Some? && data.value != ""
  }

  /** The options shape shared by both versions of `buildOptions`; they differ only in `lengthOf`. */
  function OptionsWith(verb: Method, data: Option<string>, username: string, password: string,
                       lengthOf: string -> nat): (o: Options)
    ensures o.verb == verb && o.timeout == TimeoutMs
    ensures "Authorization" in o.headers && o.headers["Authorization"] == Text(BasicAuthorization(username, password))
    ensures "Content-Type" in o.headers <==> HasData(data)
    ensures "Content-Length" in o.headers <==> HasData(data)
    ensures HasData(data) ==> o.headers["Content-Type"] == Text(FormUrlEncoded)
    ensures HasData(data) ==> o.headers["Content-Length"] == Count(lengthOf(data.value))
    ensures o.headers.Keys <= {"Authorization", "Content-Type", "Content-Length"}
  {
    var auth := map["Authorization" := Text(BasicAuthorization(username, password))];
    var headers :=
      if HasData(data)
      then auth["Content-Type" := Text(FormUrlEncoded)]["Content-Length" := Count(lengthOf(data.value))]
      else auth;
    Options(verb, TimeoutMs, headers)
  }

  /**
   * `buildOptions` as the source writes it: `Content-Length` is the data
   * string's `length`, a count of UTF-16 code units.
   */
  function BuildOptionsAsWritten(verb: Method, data: Option<string>, username: string, password: string): (o: Options)
    ensures o.verb == verb && o.timeout == TimeoutMs
    ensures "Authorization" in o.headers && o.headers["Authorization"] == Text(BasicAuthorization(username, password))
    ensures o.headers.Keys == if HasData(data) then {"Authorization", "Content-Type", "Content-Length"} else {"Authorization"}
    ensures HasData(data) ==> o.headers["Content-Type"] == Text(FormUrlEncoded)
    ensures HasData(data) ==> o.headers["Content-Length"] == Count(Unicode.Utf16Length(data.value))
  {
    OptionsWith(verb, data, username, password, Unicode.Utf16Length)
  }

  /** The length of the bytes Node writes for a string body (UTF-8, its default). */
  function BodyLength(s: string): nat {
    |Unicode.Encode(s)|
  }

  /**
   * `buildOptions` with `Content-Length` counting the UTF-8 bytes that are
   * actually written: the corrected version, which `PostCorrected` uses.
   */
  function BuildOptions(verb: Method, data: Option<string>, username: string, password: string): (o: Options)
    ensures o.verb == verb && o.timeout == TimeoutMs
    ensures "Authorization" in o.headers && o.headers["Authorization"] == Text(BasicAuthorization(username, password))
    ensures o.headers.Keys == if HasData(data) then {"Authorization", "Content-Type", "Content-Length"} else {"Authorization"}
    ensures HasData(data) ==> o.headers["Content-Type"] == Text(FormUrlEncoded)
    ensures HasData(data) ==> o.headers["Content-Length"] == Count(|Unicode.Encode(data.value)|)
  {
    OptionsWith(verb, data, username, password, BodyLength)
  }

  /** The two versions of `buildOptions` agree exactly when the data is ASCII. */
  lemma AsWrittenAgreesOnAscii(verb: Method, data: string, username: string, password: string)
    ensures BuildOptionsAsWritten(verb, Some(data), username, password) == BuildOptions(verb, Some(data), username, password)
        <==> forall i :: 0 <= i < |data| ==> Unicode.IsAscii(data[i])
  {
    Unicode.Utf16LengthVersusUtf8(data);
    var w := BuildOptionsAsWritten(verb, Some(data), username, password);
    var f := BuildOptions(verb, Some(data), username, password);
    if data != "" && w == f {
      assert w.headers["Content-Length"] == f.headers["Content-Length"];
    }
  }

  /** A one-character body, "é", is announced as one byte but written as two. */
  lemma AsWrittenUndercountsNonAscii()
    ensures BuildOptionsAsWritten(POST, Some("\U{E9}"), "u", "p").headers["Content-Length"] == Count(1)
    ensures |Unicode.Encode("\U{E9}")| == 2
  {
  }

  /** The text `post` computes headers from: a string as is, anything else through `JSON.stringify`. */
  function DataString(data: Json, stringify: Json -> string): (s: string)
    ensures data.JString? ==> s == data.s
    ensures !data.JString? ==> s == stringify(data)
  {
    if data.JString? then data.s else stringify(data)
  }

  /**
   * The headers `buildOptions` sets, as the source writes it, for a request
   * authenticated as `username:password` whose data string is `text`: the
   * Authorization header always, and the two content headers when `text` is
   * non-empty, with the length counted in UTF-16 code units.
   */
  predicate AnnouncesAsWritten(h: map<string, HeaderValue>, username: string, password: string, text: string) {
    && h.Keys == (if text != "" then {"Authorization", "Content-Type", "Content-Length"} else {"Authorization"})
    && h["Authorization"] == Text(BasicAuthorization(username, password))
    && (text != "" ==> h["Content-Type"] == Text(FormUrlEncoded))
    && (text != "" ==> h["Content-Length"] == Count(Unicode.Utf16Length(text)))
  }

  /** `get`: a GET request with no content headers and no body. */
  function Get(url: string, username: string, password: string): (r: Request)
    ensures r.url == url && r.body == None
    ensures r.options.verb == GET && r.options.timeout == TimeoutMs
    ensures r.options.headers == map["Authorization" := Text(BasicAuthorization(username, password))]
    ensures AnnouncesAsWritten(r.options.headers, username, password, "")
  {
    Request(url, BuildOptionsAsWritten(GET, None, username, password), None)
  }

  /**
   * `post`: a POST request whose headers describe the data string, as the
   * source computes them, and whose body is the data itself when it is truthy.
   */
  function Post(url: string, data: Json, username: string, password: string, stringify: Json -> string): (r: Request)
    ensures r.url == url
    ensures r.options.verb == POST && r.options.timeout == TimeoutMs
    ensures AnnouncesAsWritten(r.options.headers, username, password, DataString(data, stringify))
    // The next two follow from the one above and `DataString`; they are kept for readers of string bodies.
    ensures "Content-Length" in r.options.headers <==> DataString(data, stringify) != ""
    ensures data.JString? && data.s != "" ==> r.options.headers["Content-Length"] == Count(Unicode.Utf16Length(data.s))
    ensures r.body.Some? <==> Truthy(data)
    ensures r.body.Some? ==> r.body.value == data
  {
    var options := BuildOptionsAsWritten(POST, Some(DataString(data, stringify)), username, password);
    Request(url, options, if Truthy(data) then Some(data) else None)
  }

  /** `post` with `Content-Length` counting the UTF-8 bytes of the data string. */
  function PostCorrected(url: string, data: Json, username: string, password: string, stringify: Json -> string)
    : (r: Request)
    ensures r.url == url && r.options.verb == POST && r.options.timeout == TimeoutMs
    ensures r.options.headers.Keys
            == if DataString(data, stringify) != "" then {"Authorization", "Content-Type", "Content-Length"}
               else {"Authorization"}
    ensures r.options.headers["Authorization"] == Text(BasicAuthorization(username, password))
    ensures DataString(data, stringify) != "" ==> r.options.headers["Content-Type"] == Text(FormUrlEncoded)
    ensures DataString(data, stringify) != ""
            ==> r.options.headers["Content-Length"] == Count(BodyLength(DataString(data, stringify)))
    ensures r.body.Some? <==> Truthy(data)
    ensures r.body.Some? ==> r.body.value == data
  {
    var options := BuildOptions(POST, Some(DataString(data, stringify)), username, password);
    Request(url, options, if Truthy(data) then Some(data) else None)
  }

  /** `post` as written and corrected send the same request exactly when the data string is ASCII. */
  lemma PostAgreesOnAscii(url: string, data: Json, username: string, password: string, stringify: Json -> string)
    ensures Post(url, data, username, password, stringify) == PostCorrected(url, data, username, password, stringify)
        <==> forall i :: 0 <= i < |DataString(data, stringify)| ==> Unicode.IsAscii(DataString(data, stringify)[i])
  {
    var text := DataString(data, stringify);
    AsWrittenAgreesOnAscii(POST, text, username, password);
  }

  /**
   * For a string body the announced `Content-Length` is the number of bytes
   * written exactly when the string is ASCII.
   */
  lemma PostAnnouncesBodyLengthOnlyOnAscii(url: string, body: string, username: string, password: string,
                                           stringify: Json -> string)
    requires body != ""
    ensures Post(url, JString(body), username, password, stringify).options.headers["Content-Length"]
            == Count(BodyLength(body))
        <==> forall i :: 0 <= i < |body| ==> Unicode.IsAscii(body[i])
  {
    Unicode.Utf16LengthVersusUtf8(body);
  }

  /** How one exchange ends, as the network reports it. */
  datatype Event =
    | Response(status: nat, body: string)
    | Timeout
    | ConnectionError(cause: string)

  /** Why a request promise rejects. */
  datatype Rejection = StatusCode(code: nat) | TimedOut | ConnectionFailed(cause: string)

  /** The settled promise of `request`. */
  datatype Outcome = Resolved(value: Json) | Rejected(reason: Rejection)

  /** The rejection value the source produces, as text. */
  function RejectionMessage(r: Rejection): string {
    match r
    case StatusCode(code) => "HTTP status code " + Decimal.ToString(code)
    case TimedOut => "Request time out"
    case ConnectionFailed(cause) => cause
  }

  /** The status code can be read back from a status rejection message. */
  lemma StatusMessageNamesCode(code: nat)
    ensures |RejectionMessage(StatusCode(code))| > 17
    ensures RejectionMessage(StatusCode(code))[..17] == "HTTP status code "
    ensures Decimal.Parse(RejectionMessage(StatusCode(code))[17..]) == Some(code)
  {
    var digits := Decimal.ToString(code);
    assert ("HTTP status code " + digits)[17..] == digits;
    Decimal.ParseToString(code);
  }

  /** `safeJSONparse`: the parsed body, or `null` when the text is not JSON. */
  function SafeJsonParse(text: string, parse: string -> Option<Json>): (v: Json)
    ensures parse(text).None? ==> v == JNull
    ensures parse(text).Some? ==> v == parse(text).value
  {
    parse(text).GetOr(JNull)
  }

  /** How `request` settles its promise once the exchange has ended. */
  function Settle(e: Event, parse: string -> Option<Json>): (o: Outcome)
    ensures e.Response? ==> (o.Resolved? <==> 200 <= e.status <= 299)
    ensures e.Response? && o.Rejected? ==> o.reason == StatusCode(e.status)
    ensures e.Response? && o.Resolved? && parse(e.body).None? ==> o.value == JNull
    ensures e.Response? && o.Resolved? && parse(e.body).Some? ==> o.value == parse(e.body).value
    ensures e.Timeout? ==> o == Rejected(TimedOut)
    ensures e.ConnectionError? ==> o == Rejected(ConnectionFailed(e.cause))
  {
    match e
    case Response(status, body) =>
      if status < 200 || status > 299 then Rejected(StatusCode(status))
      else Resolved(SafeJsonParse(body, parse))
    case Timeout => Rejected(TimedOut)
    case ConnectionError(cause) => Rejected(ConnectionFailed(cause))
  }
}

=== FILE: unicode.dfy ===
/**
 * The two string encodings the request layer touches.  Node's
 * `Buffer.from(s, 'utf-8')` turns a string into UTF-8 bytes (the bytes that
 * are base64-encoded for the Authorization header and the bytes written as a
 * request body), while a JavaScript string's `length` counts UTF-16 code
 * units.  A Dafny `char` is a Unicode scalar value, so both encodings are
 * defined here over scalar values.
 */
module Unicode {
  import opened Wrappers

  type byte = x: int | 0 <= x < 256

  /** A continuation byte of a multi-byte UTF-8 sequence: 10xxxxxx. */
  predicate IsContinuation(b: byte) {
    0x80 <= b < 0xC0
  }

  predicate IsAscii(c: char) {
    (c as int) < 0x80
  }

  /** The UTF-8 encoding of one scalar value (section 3 of RFC 3629). */
  function EncodeChar(c: char): (r: seq<byte>)
    ensures 1 <= |r| <= 4
    ensures IsAscii(c) <==> |r| == 1
    ensures IsAscii(c) ==> r[0] == c as int
    ensures !IsAscii(c) ==> forall i :: 0 <= i < |r| ==> r[i] >= 0x80
  {
    var n := c as int;
    var q1 := n / 64;
    var q2 := q1 / 64;
    var q3 := q2 / 64;
    if n < 0x80 then [n]
    else if n < 0x800 then [0xC0 + q1, 0x80 + n % 64]
    else if n < 0x10000 then [0xE0 + q2, 0x80 + q1 % 64, 0x80 + n % 64]
    else [0xF0 + q3, 0x80 + q2 % 64, 0x80 + q1 % 64, 0x80 + n % 64]
  }

  /** The UTF-8 encoding of a string: the encodings of its characters, in order. */
  function Encode(s: string): (r: seq<byte>)
    ensures |r| >= |s|
    decreases |s|
  {
    if |s| == 0 then [] else EncodeChar(s[0]) + Encode(s[1..])
  }

  /** The number of UTF-16 code units of a string, which is JavaScript's `length`. */
  function Utf16Length(s: string): (n: nat)
    ensures |s| <= n <= 2 * |s|
    decreases |s|
  {
    if |s| == 0 then 0
    else (if (s[0] as int) >= 0x10000 then 2 else 1) + Utf16Length(s[1..])
  }

  predicate IsScalar(n: int) {
    0 <= n < 0xD800 || 0xE000 <= n < 0x11_0000
  }

  /** Reads the first scalar value of `bs`, with the number of bytes it takes. */
  function DecodeFirst(bs: seq<byte>): (r: Option<(char, nat)>)
    ensures r.Some? ==> 1 <= r.value.1 <= |bs|
  {
    if |bs| == 0 then None
    else
      var b0: int := bs[0];
      if b0 < 0x80 then Some((b0 as char, 1))
      else if 0xC0 <= b0 < 0xE0 && |bs| >= 2 && IsContinuation(bs[1]) then
        var b1: int := bs[1];
        var n := (b0 - 0xC0) * 64 + (b1 - 0x80);
        if IsScalar(n) then Some((n as char, 2)) else None
      else if 0xE0 <= b0 < 0xF0 && |bs| >= 3 && IsContinuation(bs[1]) && IsContinuation(bs[2]) then
        var b1: int, b2: int := bs[1], bs[2];
        var n := ((b0 - 0xE0) * 64 + (b1 - 0x80)) * 64 + (b2 - 0x80);
        if IsScalar(n) then Some((n as char, 3)) else None
      else if 0xF0 <= b0 < 0xF8 && |bs| >= 4 && IsContinuation(bs[1])
              && IsContinuation(bs[2]) && IsContinuation(bs[3]) then
        var b1: int, b2: int, b3: int := bs[1], bs[2], bs[3];
        var n := (((b0 - 0xF0) * 64 + (b1 - 0x80)) * 64 + (b2 - 0x80)) * 64 + (b3 - 0x80);
        if IsScalar(n) then Some((n as char, 4)) else None
      else None
  }

  /** Decodes a whole byte sequence, or fails on the first malformed sequence. */
  function Decode(bs: seq<byte>): Option<string>
    decreases |bs|
  {
    if |bs| == 0 then Some([])
    else match DecodeFirst(bs)
      case None => None
      case Some((c, k)) =>
        match Decode(bs[k..])
        case None => None
        case Some(rest) => Some([c] + rest)
  }

  /** Decoding the front of an encoded character gives that character back. */
  lemma DecodeFirstEncodeChar(c: char, rest: seq<byte>)
    ensures DecodeFirst(EncodeChar(c) + rest) == Some((c, |EncodeChar(c)|))
  {
    var bs := EncodeChar(c) + rest;
    assert bs[0] == EncodeChar(c)[0];
  }

  /** Encoding distributes over concatenation. */
  lemma {:induction false} EncodeAppend(a: string, b: string)
    ensures Encode(a + b) == Encode(a) + Encode(b)
    decreases |a|
  {
    if |a| > 0 {
      assert (a + b)[0] == a[0];
      assert (a + b)[1..] == a[1..] + b;
      EncodeAppend(a[1..], b);
      calc {
        Encode(a + b);
        EncodeChar(a[0]) + Encode(a[1..] + b);
        EncodeChar(a[0]) + (Encode(a[1..]) + Encode(b));
        (EncodeChar(a[0]) + Encode(a[1..])) + Encode(b);
        Encode(a) + Encode(b);
      }
    } else {
      assert a + b == b;
    }
  }

  /** UTF-8 decoding undoes UTF-8 encoding. */
  lemma {:induction false} DecodeEncode(s: string)
    ensures Decode(Encode(s)) == Some(s)
    decreases |s|
  {
    if |s| > 0 {
      var e := EncodeChar(s[0]);
      DecodeFirstEncodeChar(s[0], Encode(s[1..]));
      assert (e + Encode(s[1..]))[|e|..] == Encode(s[1..]);
      DecodeEncode(s[1..]);
      assert [s[0]] + s[1..] == s;
    }
  }

  /** A byte below 0x80 in an encoding can only come from that very ASCII character. */
  lemma {:induction false} AsciiByteComesFromChar(s: string, b: byte)
    requires b < 0x80
    requires b in Encode(s)
    ensures b as char in s
    decreases |s|
  {
    if |s| > 0 {
      if b in EncodeChar(s[0]) {
        var i :| 0 <= i < |EncodeChar(s[0])| && EncodeChar(s[0])[i] == b;
        assert s[0] == b as char;
      } else {
        AsciiByteComesFromChar(s[1..], b);
      }
    }
  }

  /** JavaScript's `length` never exceeds the UTF-8 byte count, and equals it exactly for ASCII text. */
  lemma {:induction false} Utf16LengthVersusUtf8(s: string)
    ensures Utf16Length(s) <= |Encode(s)|
    ensures Utf16Length(s) == |Encode(s)| <==> forall i :: 0 <= i < |s| ==> IsAscii(s[i])
    decreases |s|
  {
    if |s| > 0 {
      Utf16LengthVersusUtf8(s[1..]);
      if !IsAscii(s[0]) {
        assert |EncodeChar(s[0])| > (if (s[0] as int) >= 0x10000 then 2 else 1);
      }
      forall i | 0 <= i < |s[1..]| ensures s[1..][i] == s[i + 1] {}
    }
  }
}

=== FILE: wrappers.dfy ===
/** The optional value and the success-or-error result shared by the whole model. */
module Wrappers {

  /** An optional value: `None` plays the role of JavaScript's `undefined`. */
  datatype Option<+T> = None | Some(value: T) {

    /** The wrapped value, or `default` when there is none. */
    function GetOr(default: T): T {
      match this
      case Some(v) => v
      case None => default
    }
  }

  /** Either a value or the error a JavaScript function would have thrown. */
  datatype Result<+R, +E> = Success(value: R) | Failure(error: E)
}
